=== FILE: README.md ===
# mouseAtlasViewer hierarchy core, modelled in Dafny

mouseAtlasViewer draws 3D contours of brain regions from the Allen mouse brain atlas.
It has two inputs: a label volume, where each voxel holds a structure id, and the
structure-tree table. In that table, each record's `structure_id_path` (for example
`/997/8/567/`) lists its ancestors from the root down to itself. This project models
the parts of `process.py` and `view.py` that work out which ids belong to a region:

- **Matricisers.** `_matriciseTree` (and its copy `matriciseTree` in view.py) and
  `_matriciseTree_optimized` turn the path column into a matrix of integer ids: one row
  per record, padded with 0. Both are modelled on the text itself: the "0/" padding, the
  split on '/', the column window, the `fillna`/`replace` of the optimized version, and
  the integer conversion with its failure.
- **Hierarchy queries.**
  - `_hasChildren` / `hasChildren`: a three-way answer, `False`, `True` or `-1`.
  - `_findChildren` / `findChildren`: the column scan, including its Python
    behaviours. Index `-1` wraps to the last column. An id already collected does not
    stop the scan. A row with no 0 appends its last column. view.py returns `None` for a
    leaf.
  - `_findChildren_optimized`: the `argmax`/fancy-indexing version, with its
    `IndexError` and `np.unique`.
- **Region lookup.** `getRegionData` finds a structure by acronym.
- **Masks.** The boolean voxel masks that `makeRegionByID` and `makeBrainContour`
  build before contouring.

The modules follow the program: `Text` (splitting, joining and decimal parsing),
`Structures` (the table and the matricisers), `Hierarchy` (process.py's queries on a
matrix), `SortedSets` (`np.unique`), `Regions`, `Masks`, `View` (view.py's copies) and
`Examples` (small tables worked through). The module-level `MATRIX_TREE` and `ST_DATA`
become parameters.

The properties proved are these:

- **Round trips.** A path written from an ancestor chain reads back as that chain,
  padded or truncated to the matrix width. The width is fixed at 10 for the legacy
  matriciser and is min(11, deepest chain + 1) for the optimized one.
- **Three-way answer.** The answer of `_hasChildren` matches the number of cells that
  hold the id, in both directions.
- **Original scan.** For a target that does not fill exactly one cell, the own id of
  every row holding the target is in `_findChildren`'s result. On a table whose own ids
  are distinct, the result is exactly those own ids, once each, in table order. A target
  filling exactly one cell gives `[targetId]`.
- **Optimized version.** `_findChildren_optimized` raises exactly when some row has the
  target's first occurrence in its last column. Otherwise it returns a sorted,
  duplicate-free set: the target plus every non-zero entry right after it.
- **The two versions compared.** Take a prefix-closed table of path rows, and a
  positive target present in the table for which `_findChildren_optimized` raises no
  `IndexError`. There, every id the optimized
  version returns is also returned by `_findChildren`.
- **Masks.** Each mask is pointwise "label is in the id list".

### Behaviour of the code worth knowing

- **Matrix width.** `_matriciseTree` keeps 10 id columns (`iloc[:, 1:11]`), whatever
  the table. `_matriciseTree_optimized` keeps up to 11: its width is min(11, longest
  split − 1), so a shallow table gives a narrower matrix (`Examples.SingleRootOptimized`:
  a lone /1/ gives two columns).
- **Absent ids.** An id found nowhere is not an error. `_findChildren` returns an empty
  result, because `-1` is truthy and no row survives the mask.
  `_findChildren_optimized` returns `[targetId]`. view.py's `findChildren` returns an
  empty array.
- **Depth of `_findChildren_optimized`.** On /1/, /1/8/, /1/8/997/, `_findChildren`
  returns [1, 8, 997] (`Examples.ThreeLevelRootOriginal`) but `_findChildren_optimized`
  returns [1, 8] (`Examples.ThreeLevelRootOptimized`). It reads only the column right
  after the target, one level down.
- **Structures without a row of their own, and structures deeper than the table.**
  `_findChildren` and view.py's `findChildren` collect own ids, not the subtree. A target
  with no row of its own is missing from its own result
  (`Examples.TargetWithoutOwnRow`: rows /1/8/997/ and /1/8/998/ alone give [997, 998] for
  8). A structure deeper than the matrix width has its row cut to its first ids, so it is
  reported as its deepest kept ancestor (`Examples.DeepPathKeepsAncestor`).
- **Empty path tokens.** In `_matriciseTree`, an empty token inside the kept window (a
  path such as `/1//8/`) makes `astype('int')` fail. `_matriciseTree_optimized` reads it
  as 0.

## Model

| member | source | states |
|---|---|---|
| Text.Split | mouseAtlasViewer/process.py:21 | `str.split('/')` yields one more piece than there are slashes, and no piece contains a slash |
| Text.JoinSplit | mouseAtlasViewer/process.py:21 | splitting on '/' loses nothing: joining the pieces with '/' gives back the original path |
| Text.SplitJoin | mouseAtlasViewer/process.py:21 | pieces without a slash, joined with '/' and split again, come back unchanged |
| Text.ParseShow | mouseAtlasViewer/process.py:23 | `int()` of the decimal text of an id is that id |
| Structures.ParseRow | mouseAtlasViewer/process.py:23 | converting a row of tokens succeeds exactly when every token is decimal, and then each cell is that token's value |
| Structures.ParseTable | mouseAtlasViewer/process.py:23 | converting the table succeeds exactly when every row converts, row by row |
| Text.CountChar | mouseAtlasViewer/process.py:15 | `x.count('/')` never exceeds the path's length |
| Text.CountCharAbsent | mouseAtlasViewer/process.py:15 | the count is 0 exactly when the path holds no '/' |
| Text.ParseNat | mouseAtlasViewer/process.py:23 | a token made only of ASCII digits parses, and any other token fails (see "## Left out") |
| Structures.LegacyPaddingCount | mouseAtlasViewer/process.py:18 | `range(12 - slashes[i])` appends enough "0/" to bring a path to exactly 12 slashes, and none to a path that already has 12 or more |
| Structures.LegacyPadded | mouseAtlasViewer/process.py:15-19 | after padding with "0/", every path holds at least 12 slashes |
| Structures.LegacyTokens | mouseAtlasViewer/process.py:21-22 | `iloc[:, 1:11]` keeps 10 tokens of the padded path, none holding a slash |
| Structures.MatriciseTree | mouseAtlasViewer/process.py:12-26 | `_matriciseTree` gives one row per record, 10 columns wide, and fails exactly when some token in columns 1..10 of a padded path is not an integer |
| Structures.MatriciseTreeReadsChains | mouseAtlasViewer/process.py:12-26 | a table of well-formed paths is read back, row by row, as each record's ancestor chain: the first 10 ids, then 0s |
| Structures.MaxPieceCount | mouseAtlasViewer/process.py:32 | `expand=True` makes as many columns as the longest split: no record splits into more |
| Structures.MaxPieceCountAttained | mouseAtlasViewer/process.py:32 | the column count is the split length of some record |
| Structures.OptimizedWidth | mouseAtlasViewer/process.py:32-38 | the optimized matrix is never wider than 11 columns |
| Structures.OptimizedCell | mouseAtlasViewer/process.py:38-46 | a kept cell is never empty: it is the split piece when that piece exists and is non-empty, and "0" otherwise (`fillna`, `replace('', '0')`) |
| Structures.OptimizedTokens | mouseAtlasViewer/process.py:32-46 | each record gives one token per kept column, none empty and none holding a slash |
| Structures.MatriciseTreeOptimized | mouseAtlasViewer/process.py:28-52 | `_matriciseTree_optimized` gives one row per record, all of the same width of at most 11, and fails exactly when a kept token, after missing and empty tokens become "0", is not an integer |
| Structures.MaxDepth | mouseAtlasViewer/process.py:32 | the depth of the deepest chain bounds every chain and is reached by one of them |
| Structures.MaxPieceCountOfChains | mouseAtlasViewer/process.py:32 | for written-out paths, the number of split columns is the deepest chain's depth plus two |
| Structures.MatriciseTreeOptimizedReadsChains | mouseAtlasViewer/process.py:28-52 | for well-formed paths the width is min(11, deepest chain + 1), and each row is its chain's first ids padded with 0s |
| Hierarchy.Occurrences | mouseAtlasViewer/process.py:65 | the count is 0 exactly when no row holds the id |
| Hierarchy.OccurrencesIsPositions | mouseAtlasViewer/process.py:65 | the count `(MATRIX_TREE == targetId).sum()` is the number of distinct cells holding the id |
| Hierarchy.AbsentIffNoPositions | mouseAtlasViewer/process.py:65-73 | no cell holds the id exactly when no row contains it |
| Hierarchy.Truthy | mouseAtlasViewer/process.py:80 | `not _hasChildren(targetId)` holds only for `False`: both `True` and `-1` are truthy |
| Hierarchy.HasChildren | mouseAtlasViewer/process.py:63-75 | `False` exactly when the id fills one cell, `True` exactly when it fills several, `-1` exactly when it appears nowhere |
| Hierarchy.Containing | mouseAtlasViewer/process.py:85-89 | the filtered rows are exactly the table's rows that hold the target, and there are none exactly when the target is absent |
| Hierarchy.HoldingIndices | mouseAtlasViewer/process.py:85-87 | the boolean row mask as positions: strictly ascending indices of rows holding the target, containing every such row |
| Hierarchy.ContainingSelectsInOrder | mouseAtlasViewer/process.py:89 | `MATRIX_TREE[mask, :]` is the order-preserving selection: its k-th row is the table row at the k-th holding index, so table order and repeated rows are kept |
| Hierarchy.OwnId | mouseAtlasViewer/process.py:93-99 | the id the scan takes from a row is one of its entries: the non-zero entry before the first 0, or the last entry when there is no 0 or the row starts with 0 (`row[-1]`) |
| Hierarchy.FirstZero | mouseAtlasViewer/process.py:92-93 | the column the scan stops at: every entry before it is non-zero, and the entry at it is 0 |
| Hierarchy.PaddedChainIsPathRow | mouseAtlasViewer/process.py:12-26 | a matrix row made from a chain of positive ids is a path row whose depth is the chain's length and whose own id is the chain's last id |
| Hierarchy.ScanRow | mouseAtlasViewer/process.py:92-99 | one row's inner loop keeps the ids collected so far and adds at most one id, taken from that row |
| Hierarchy.ScanRows | mouseAtlasViewer/process.py:91-99 | the outer loop keeps the ids collected so far, adds at most one per row, and every added id comes from a scanned row |
| Hierarchy.FindChildren | mouseAtlasViewer/process.py:78-101 | `_findChildren` is `[targetId]` for an id in one cell and empty for an absent id; otherwise it has at most one id per row holding the target, each taken from such a row |
| Hierarchy.ScanRowAddsOwnId | mouseAtlasViewer/process.py:92-97 | scanning a row up to its first 0 adds exactly the row's own id, provided that id is new |
| Hierarchy.ScanRowsAddsOwnIds | mouseAtlasViewer/process.py:91-99 | with distinct, not yet collected own ids, the scan appends every row's own id, in order |
| Hierarchy.ContainingKeepsDistinctOwnIds | mouseAtlasViewer/process.py:85-89 | filtering rows keeps own ids distinct |
| Hierarchy.FindChildrenCollectsOwnIds | mouseAtlasViewer/process.py:78-101 | with distinct own ids and an id not in exactly one cell, `_findChildren` returns each holding row's own id once, in table order |
| Hierarchy.ScanRowHasOwnId | mouseAtlasViewer/process.py:92-97 | scanning a row from a column up to its first 0 leaves the row's own id among the collected ids, whether it was new or already there |
| Hierarchy.ScanRowsHasOwnIds | mouseAtlasViewer/process.py:91-99 | after the outer loop, every scanned row's own id is among the collected ids, even when own ids repeat |
| Hierarchy.OwnIdInFindChildren | mouseAtlasViewer/process.py:78-101 | when the target does not fill exactly one cell, the own id of every row holding the target is in `_findChildren`'s result |
| Hierarchy.FindChildrenIncludesTarget | mouseAtlasViewer/process.py:78-101 | the target is in its own result whenever some row has it as own id, with no condition on the other rows |
| Hierarchy.IndexOf | mouseAtlasViewer/process.py:118 | `np.argmax(row == t)` is the column of the first occurrence of t |
| Hierarchy.NextAfterTarget | mouseAtlasViewer/process.py:118-129 | `child_ids` has one entry per filtered row, that row's entry right after the target's first occurrence |
| Hierarchy.NonZero | mouseAtlasViewer/process.py:134 | `child_ids[child_ids != 0]` keeps exactly the non-zero entries |
| Hierarchy.LastColumnAmongContaining | mouseAtlasViewer/process.py:111-129 | a filtered row has the target in its last column exactly when some table row does; when none does, every filtered row has a column after the target |
| Hierarchy.NextAfterTargetEntries | mouseAtlasViewer/process.py:118-129 | `child_ids` holds exactly the entries right after the target's first occurrence, over all rows holding it |
| Hierarchy.FindChildrenOptimized | mouseAtlasViewer/process.py:103-140 | `[targetId]` for an absent id; an `IndexError` exactly when some row has the target's first occurrence in its last column; otherwise ascending and duplicate-free, holding exactly the target and the non-zero entries right after its first occurrence (0 only when the target is 0) |
| Hierarchy.PrefixOfPathRow | mouseAtlasViewer/process.py:78-101 | the depth-d prefix row of a path row has depth d, own id `row[d-1]`, and agrees with the row up to d |
| Hierarchy.TargetInOriginal | mouseAtlasViewer/process.py:78-101 | on a prefix-closed table of path rows, a present positive target is in `_findChildren`'s result, even when own ids repeat |
| Hierarchy.NextEntryInOriginal | mouseAtlasViewer/process.py:78-101 | on such a table, a non-zero entry right after the target is in `_findChildren`'s result |
| Hierarchy.OptimizedWithinOriginal | mouseAtlasViewer/process.py:78-140 | on such a table, every id `_findChildren_optimized` returns is also returned by `_findChildren` |
| SortedSets.Insert | mouseAtlasViewer/process.py:140 | inserting into a strictly ascending sequence keeps it strictly ascending and adds exactly the new value |
| SortedSets.Unique | mouseAtlasViewer/process.py:140 | `np.unique` is strictly ascending and holds exactly the input's values |
| SortedSets.AscendingDeterminedByElements | mouseAtlasViewer/process.py:140 | two strictly ascending sequences with the same elements are equal, so the result of `np.unique` is fully determined |
| Regions.GetRegionData | mouseAtlasViewer/process.py:143-172 | `None` exactly when no acronym matches; otherwise the id and name of the first matching record, with the acronym asked for |
| Regions.GetRegionDataOfKey | mouseAtlasViewer/process.py:157-172 | with unique acronyms, looking up a record's acronym returns that record |
| Masks.RegionMask | mouseAtlasViewer/process.py:179-182 | the OR loop marks a voxel exactly when its label is one of the ids |
| Masks.MakeRegionMask | mouseAtlasViewer/process.py:175-182 | `IndexError` exactly when the optimized query raises; otherwise the mask of its ids, marking every voxel labelled with the target and, for a non-zero target, no background voxel |
| Masks.BrainMask | mouseAtlasViewer/process.py:203 | one entry per voxel, true exactly when the voxel's label is above 1 (also view.py line 89) |
| Masks.LabelsAbove1 | mouseAtlasViewer/process.py:203 | exactly the volume's labels above 1 |
| Masks.BrainMaskIsRegionMask | mouseAtlasViewer/process.py:197-204 | the brain mask (also view.py line 89) is the region mask of all labels above 1, and never marks a 0 or 1 voxel |
| View.HasChildren | mouseAtlasViewer/view.py:5-17 | view.py's `hasChildren` gives the same three-way answer as a function of the cells holding the id |
| View.MatriciseTree | mouseAtlasViewer/view.py:20-34 | view.py's `matriciseTree` is process.py's `_matriciseTree`: 10 columns, one row per record |
| View.FindChildren | mouseAtlasViewer/view.py:37-61 | fails exactly when the matriciser does; `None` exactly when the id fills one cell; otherwise the original scan's result, empty for an absent id |
| View.FindChildrenCollectsOwnIds | mouseAtlasViewer/view.py:37-61 | with distinct own ids and an id not in exactly one cell, `findChildren` gives each holding row's own id once |
| View.MakeRegionMask | mouseAtlasViewer/view.py:64-71 | a parse failure, or iteration over `None` exactly for an id in one cell; otherwise the mask of `findChildren`'s ids, all false for an absent id |
| Examples.ThreeLevelMatrix | mouseAtlasViewer/process.py:28-52 | /1/, /1/8/, /1/8/997/ become a 4-column matrix of chains |
| Examples.ThreeLevelRootOriginal | mouseAtlasViewer/process.py:78-101 | `_findChildren(1)` there is [1, 8, 997] |
| Examples.ThreeLevelRootOptimized | mouseAtlasViewer/process.py:103-140 | `_findChildren_optimized(1)` there is [1, 8]: one level only |
| Examples.ThreeLevelMiddleOriginal | mouseAtlasViewer/process.py:78-101 | `_findChildren(8)` there is [8, 997] |
| Examples.ThreeLevelMiddleOptimized | mouseAtlasViewer/process.py:103-140 | `_findChildren_optimized(8)` there is [8, 997] |
| Examples.ThreeLevelLeafOriginal | mouseAtlasViewer/process.py:80-81 | the leaf 997 gives [997] |
| Examples.ThreeLevelLeafOptimized | mouseAtlasViewer/process.py:103-140 | the leaf 997 gives [997] in the optimized version too |
| Examples.RepeatedOwnIdAppendsZero | mouseAtlasViewer/process.py:92-97 | with two identical rows [1, 0, 0] (the same path recorded twice, three columns wide), the scan skips the collected 1, moves to the next 0 and appends 0 |
| Examples.TargetWithoutOwnRow | mouseAtlasViewer/process.py:78-101 | with only the rows /1/8/997/ and /1/8/998/, `_findChildren(8)` is [997, 998], without 8 |
| Examples.DeepPathKeepsAncestor | mouseAtlasViewer/process.py:92-99 | a path /1/8/997/5/ cut to three columns reads as 997's row, and `_findChildren(1)` on /1/ and that row is [1, 997] |
| Examples.TargetInLastColumnRaises | mouseAtlasViewer/process.py:125-129 | a target in the last column raises `IndexError` |
| Examples.SingleRootOptimized | mouseAtlasViewer/process.py:28-52 | a lone root /1/ gives a 2-column matrix [[1, 0]] |
| Examples.SingleRootLegacy | mouseAtlasViewer/process.py:12-26 | the same record gives a 10-column row |
| Examples.ViewLeafGivesNone | mouseAtlasViewer/view.py:37-61 | in view.py, the leaf 8 of /1/, /1/8/ gives `None` |

## Left out

- Loading the CSV (`_load_st_data`, `load.py`) and the module-level globals `ST_DATA` and `MATRIX_TREE`. The table and the matrix are parameters.
- Contouring with pyvista (`ImageData`/`UniformGrid`, `contour`, `gaussian_smooth`), the float conversion and the Fortran-order ravel. The model stops at the boolean mask, which it flattens to one sequence of voxels because every mask is computed voxel by voxel.
- Printed warnings ("Invalid index!", the unknown-abbreviation warning): output only.
- Error messages. A failing `astype(int)` is one `MalformedPath` error, and the fancy-indexing failure is one `IndexError`.
- Text.ParseNat: accepts only non-empty runs of ASCII digits. It does not model `int()` accepting a sign ("+5"), surrounding whitespace (" 5"), underscores between digits ("1_0") or non-ASCII decimal digits, because the structure-id paths hold plain ASCII decimal ids.
- Structures.ParseRow: accepts only unsigned ASCII decimal digits. It does not model `int()` accepting signs, surrounding whitespace, underscores or non-ASCII decimal digits, and it does not model int64 overflow, because the structure-id paths hold positive decimal ids.
- Hierarchy.FindChildren: the result is a sequence of integers. It does not model that numpy stores `indices` as floats (`np.empty`/`np.append`), because every id in the table is an integer far below 2^53.
- Regions.GetRegionData: returns the record's fields as stored. It does not model pandas' numpy scalar types.
- Masks.BrainMask: does not model the Gaussian smoothing `makeBrainContour` may apply afterwards, because that is floating-point image filtering.
- `exampleUsage.py` and `setup.py`: a usage script and packaging. Neither is part of the core.

=== FILE: examples.dfy ===
/** Worked examples on small tables: the three-level chain /1/, /1/8/, /1/8/997/, a single
    root record, a repeated own id, a target without a row of its own, a path deeper than the
    table, a target in the last column, and the view.py leaf case. */
module Examples {
  import opened Wrappers
  import opened Structures
  import opened Hierarchy
  import opened SortedSets
  import View

  lemma ThreeLevelDepth()
    ensures MaxDepth([[1], [1, 8], [1, 8, 997]]) == 3
  {
    var chains: seq<seq<nat>> := [[1], [1, 8], [1, 8, 997]];
    assert chains[1..] == [[1, 8], [1, 8, 997]];
    assert chains[1..][1..] == [[1, 8, 997]];
    assert chains[1..][1..][1..] == [];
  }

  /** Reading the table /1/, /1/8/, /1/8/997/ with `_matriciseTree_optimized`. */
  lemma ThreeLevelMatrix(st: seq<StructureRecord>)
    requires WrittenFrom(st, [[1], [1, 8], [1, 8, 997]])
    ensures MatriciseTreeOptimized(st) == Ok([[1, 0, 0, 0], [1, 8, 0, 0], [1, 8, 997, 0]])
  {
    MatriciseTreeOptimizedReadsChains(st, [[1], [1, 8], [1, 8, 997]]);
    ThreeLevelDepth();
    ThreeLevelPadded();
    var m := MatriciseTreeOptimized(st).value;
    ThreeRows(m, [1, 0, 0, 0], [1, 8, 0, 0], [1, 8, 997, 0]);
  }

  lemma ThreeRows(m: Matrix, a: seq<int>, b: seq<int>, c: seq<int>)
    requires |m| == 3 && m[0] == a && m[1] == b && m[2] == c
    ensures m == [a, b, c]
  {
  }

  lemma ThreeLevelPadded()
    ensures PadOrTruncate([1], 4) == [1, 0, 0, 0]
    ensures PadOrTruncate([1, 8], 4) == [1, 8, 0, 0]
    ensures PadOrTruncate([1, 8, 997], 4) == [1, 8, 997, 0]
  {
  }

  lemma ThreeLevelPrefixes()
    ensures [[1, 0, 0, 0], [1, 8, 0, 0], [1, 8, 997, 0]][..2] == [[1, 0, 0, 0], [1, 8, 0, 0]]
    ensures [[1, 0, 0, 0], [1, 8, 0, 0], [1, 8, 997, 0]][..2][..1] == [[1, 0, 0, 0]]
    ensures [[1, 0, 0, 0], [1, 8, 0, 0], [1, 8, 997, 0]][..2][..1][..0] == []
    ensures [[1, 0, 0, 0], [1, 8, 0, 0], [1, 8, 997, 0]][1..][1..][1..] == []
  {
  }

  lemma ThreeLevelCountRoot()
    ensures Occurrences([[1, 0, 0, 0], [1, 8, 0, 0], [1, 8, 997, 0]], 1) == 3
    ensures Containing([[1, 0, 0, 0], [1, 8, 0, 0], [1, 8, 997, 0]], 1) == [[1, 0, 0, 0], [1, 8, 0, 0], [1, 8, 997, 0]]
  {
    ThreeLevelPrefixes();
    ThreeLevelRowCounts();
  }

  lemma ThreeLevelRowCounts()
    ensures RowCount([1, 0, 0, 0], 1) == 1 && RowCount([1, 8, 0, 0], 1) == 1 && RowCount([1, 8, 997, 0], 1) == 1
    ensures RowCount([1, 0, 0, 0], 8) == 0 && RowCount([1, 8, 0, 0], 8) == 1 && RowCount([1, 8, 997, 0], 8) == 1
  {
  }

  lemma ThreeLevelCountMiddle()
    ensures Occurrences([[1, 0, 0, 0], [1, 8, 0, 0], [1, 8, 997, 0]], 8) == 2
    ensures Containing([[1, 0, 0, 0], [1, 8, 0, 0], [1, 8, 997, 0]], 8) == [[1, 0, 0, 0], [1, 8, 0, 0], [1, 8, 997, 0]][1..]
  {
    ThreeLevelPrefixes();
    ThreeLevelRowCounts();
  }

  lemma ThreeLevelCountLeaf()
    ensures Occurrences([[1, 0, 0, 0], [1, 8, 0, 0], [1, 8, 997, 0]], 997) == 1
  {
    ThreeLevelPrefixes();
    assert RowCount([1, 0, 0, 0], 997) == 0 && RowCount([1, 8, 0, 0], 997) == 0;
    assert RowCount([1, 8, 997, 0], 997) == 1;
  }

  lemma RootScan()
    ensures ScanRows([[1, 0, 0, 0], [1, 8, 0, 0], [1, 8, 997, 0]], []) == [1, 8, 997]
  {
    var m: Matrix := [[1, 0, 0, 0], [1, 8, 0, 0], [1, 8, 997, 0]];
    assert ScanRow([1, 0, 0, 0], 0, []) == [1];
    assert ScanRow([1, 8, 0, 0], 0, [1]) == [1, 8];
    assert ScanRow([1, 8, 997, 0], 0, [1, 8]) == [1, 8, 997];
    assert m[1..] == [[1, 8, 0, 0], [1, 8, 997, 0]] && m[1..][1..] == [[1, 8, 997, 0]];
  }

  lemma RootChildren()
    ensures NextAfterTarget([[1, 0, 0, 0], [1, 8, 0, 0], [1, 8, 997, 0]], 1) == [0, 8, 8]
    ensures !Overflows([[1, 0, 0, 0], [1, 8, 0, 0], [1, 8, 997, 0]], 1)
  {
    var m: Matrix := [[1, 0, 0, 0], [1, 8, 0, 0], [1, 8, 997, 0]];
    assert IndexOf(m[0], 1) == 0 && IndexOf(m[1], 1) == 0 && IndexOf(m[2], 1) == 0;
  }

  lemma RootUnique()
    ensures Unique(NonZero([0, 8, 8]) + [1]) == [1, 8]
  {
    assert NonZero([0, 8, 8]) == [8, 8] by {
      assert [0, 8, 8][1..] == [8, 8] && [8, 8][1..] == [8] && [8][1..] == [];
    }
    assert [8, 8, 1][..2] == [8, 8] && [8, 8][..1] == [8] && [8][..0] == [];
    assert Unique([8]) == [8];
    assert Unique([8, 8]) == [8];
  }

  /** `_findChildren` returns the whole subtree of the root ... */
  lemma ThreeLevelRootOriginal()
    ensures FindChildren([[1, 0, 0, 0], [1, 8, 0, 0], [1, 8, 997, 0]], 1) == [1, 8, 997]
  {
    ThreeLevelCountRoot();
    RootScan();
  }

  /** ... while `_findChildren_optimized` goes one level down only, missing the grandchild 997. */
  lemma ThreeLevelRootOptimized()
    ensures FindChildrenOptimized([[1, 0, 0, 0], [1, 8, 0, 0], [1, 8, 997, 0]], 1) == Ok([1, 8])
  {
    ThreeLevelCountRoot();
    RootChildren();
    RootUnique();
  }

  lemma MiddleScan()
    ensures ScanRows([[1, 8, 0, 0], [1, 8, 997, 0]], []) == [8, 997]
  {
    var rows: Matrix := [[1, 8, 0, 0], [1, 8, 997, 0]];
    assert ScanRow([1, 8, 0, 0], 0, []) == [8];
    assert ScanRow([1, 8, 997, 0], 0, [8]) == [8, 997];
    assert rows[1..] == [[1, 8, 997, 0]] && rows[1..][1..] == [];
  }

  lemma MiddleChildren()
    ensures NextAfterTarget([[1, 8, 0, 0], [1, 8, 997, 0]], 8) == [0, 997]
    ensures !Overflows([[1, 8, 0, 0], [1, 8, 997, 0]], 8)
  {
    assert IndexOf([1, 8, 0, 0], 8) == 1 && IndexOf([1, 8, 997, 0], 8) == 1;
  }

  lemma MiddleUnique()
    ensures Unique(NonZero([0, 997]) + [8]) == [8, 997]
  {
    assert NonZero([0, 997]) == [997] by {
      assert [0, 997][1..] == [997] && [997][1..] == [];
    }
    assert [997, 8][..1] == [997] && [997][..0] == [];
  }

  lemma ThreeLevelMiddleOriginal()
    ensures FindChildren([[1, 0, 0, 0], [1, 8, 0, 0], [1, 8, 997, 0]], 8) == [8, 997]
  {
    ThreeLevelCountMiddle();
    MiddleScan();
  }

  lemma ThreeLevelMiddleOptimized()
    ensures FindChildrenOptimized([[1, 0, 0, 0], [1, 8, 0, 0], [1, 8, 997, 0]], 8) == Ok([8, 997])
  {
    ThreeLevelCountMiddle();
    MiddleChildren();
    MiddleUnique();
  }

  lemma LeafRows()
    ensures Containing([[1, 0, 0, 0], [1, 8, 0, 0], [1, 8, 997, 0]], 997) == [[1, 8, 997, 0]]
    ensures IndexOf([1, 8, 997, 0], 997) == 2
  {
    var m: Matrix := [[1, 0, 0, 0], [1, 8, 0, 0], [1, 8, 997, 0]];
    assert m[1..][1..][1..] == [];
  }

  lemma LeafUnique()
    ensures Unique(NonZero(NextAfterTarget([[1, 8, 997, 0]], 997)) + [997]) == [997]
  {
    assert IndexOf([1, 8, 997, 0], 997) == 2;
    assert NextAfterTarget([[1, 8, 997, 0]], 997) == [0];
    assert NonZero([0]) == [] by {
      assert [0][1..] == [];
    }
    assert Unique([997]) == [997] by {
      assert [997][..0] == [];
    }
  }

  lemma ThreeLevelLeafOriginal()
    ensures FindChildren([[1, 0, 0, 0], [1, 8, 0, 0], [1, 8, 997, 0]], 997) == [997]
  {
    ThreeLevelCountLeaf();
  }

  lemma ThreeLevelLeafOptimized()
    ensures FindChildrenOptimized([[1, 0, 0, 0], [1, 8, 0, 0], [1, 8, 997, 0]], 997) == Ok([997])
  {
    ThreeLevelCountLeaf();
    LeafRows();
    LeafUnique();
  }

  lemma RepeatedOwnIdCount()
    ensures Occurrences([[1, 0, 0], [1, 0, 0]], 1) == 2
    ensures Containing([[1, 0, 0], [1, 0, 0]], 1) == [[1, 0, 0], [1, 0, 0]]
  {
    var m: Matrix := [[1, 0, 0], [1, 0, 0]];
    assert m[..1] == [[1, 0, 0]] && m[..1][..0] == [];
    assert RowCount([1, 0, 0], 1) == 1;
    assert m[1..][1..] == [];
  }

  /** With the own id 1 on two rows, `_findChildren` skips the collected 1 and appends the 0
      that follows it. */
  lemma RepeatedOwnIdAppendsZero()
    ensures FindChildren([[1, 0, 0], [1, 0, 0]], 1) == [1, 0]
  {
    RepeatedOwnIdCount();
    var m: Matrix := [[1, 0, 0], [1, 0, 0]];
    assert ScanRow([1, 0, 0], 0, []) == [1];
    assert ScanRow([1, 0, 0], 0, [1]) == [1, 0];
    assert m[1..][1..] == [];
  }

  /** A target with no row of its own is missing from its own answer: here only the rows of
      997 and 998 hold 8. */
  lemma TargetWithoutOwnRow()
    ensures FindChildren([[1, 8, 997, 0], [1, 8, 998, 0]], 8) == [997, 998]
  {
    SiblingRowsCount();
    SiblingRowsScan();
  }

  lemma SiblingRowsScan()
    ensures ScanRows([[1, 8, 997, 0], [1, 8, 998, 0]], []) == [997, 998]
  {
    var m: Matrix := [[1, 8, 997, 0], [1, 8, 998, 0]];
    assert ScanRow([1, 8, 997, 0], 0, []) == [997];
    assert ScanRow([1, 8, 998, 0], 0, [997]) == [997, 998];
    assert m[1..][1..] == [];
  }

  lemma SiblingRowsCount()
    ensures Occurrences([[1, 8, 997, 0], [1, 8, 998, 0]], 8) == 2
    ensures Containing([[1, 8, 997, 0], [1, 8, 998, 0]], 8) == [[1, 8, 997, 0], [1, 8, 998, 0]]
  {
    var m: Matrix := [[1, 8, 997, 0], [1, 8, 998, 0]];
    assert m[..1] == [[1, 8, 997, 0]] && m[..1][..0] == [];
    assert RowCount([1, 8, 997, 0], 8) == 1 && RowCount([1, 8, 998, 0], 8) == 1;
    assert m[1..][1..] == [];
  }

  /** A structure deeper than the table is cut to its first three ids, so the row of 5 under
      /1/8/997/5/ is read as 997's: `_findChildren(1)` reports 997 and never 5. */
  lemma DeepPathKeepsAncestor()
    ensures PadOrTruncate([1, 8, 997, 5], 3) == [1, 8, 997]
    ensures FindChildren([[1, 0, 0], [1, 8, 997]], 1) == [1, 997]
  {
    DeepPathCut();
    DeepPathCount();
    DeepPathScan();
  }

  lemma DeepPathCut()
    ensures PadOrTruncate([1, 8, 997, 5], 3) == [1, 8, 997]
  {
  }

  lemma DeepPathScan()
    ensures ScanRows([[1, 0, 0], [1, 8, 997]], []) == [1, 997]
  {
    var m: Matrix := [[1, 0, 0], [1, 8, 997]];
    assert ScanRow([1, 0, 0], 0, []) == [1];
    assert ScanRow([1, 8, 997], 0, [1]) == [1, 997];
    assert m[1..][1..] == [];
  }

  lemma DeepPathCount()
    ensures Occurrences([[1, 0, 0], [1, 8, 997]], 1) == 2
    ensures Containing([[1, 0, 0], [1, 8, 997]], 1) == [[1, 0, 0], [1, 8, 997]]
  {
    var m: Matrix := [[1, 0, 0], [1, 8, 997]];
    assert m[..1] == [[1, 0, 0]] && m[..1][..0] == [];
    assert RowCount([1, 0, 0], 1) == 1 && RowCount([1, 8, 997], 1) == 1;
    assert m[1..][1..] == [];
  }

  /** A target in the last column sends `child_cols` past the end. */
  lemma TargetInLastColumnRaises()
    ensures FindChildrenOptimized([[1, 8]], 8) == Err(IndexError)
  {
    assert TargetInLastColumn([1, 8], 8);
  }

  /** A single root record /1/ gives the optimized matriciser one row of width 2: 1, then a zero. */
  lemma SingleRootOptimized(st: seq<StructureRecord>)
    requires WrittenFrom(st, [[1]])
    ensures MatriciseTreeOptimized(st) == Ok([[1, 0]])
  {
    var chains: seq<seq<nat>> := [[1]];
    MatriciseTreeOptimizedReadsChains(st, chains);
    assert MaxDepth(chains) == 1 by {
      assert chains[1..] == [];
    }
    assert PadOrTruncate([1], 2) == [1, 0];
    var opt := MatriciseTreeOptimized(st).value;
    assert opt == [opt[0]];
  }

  /** The legacy matriciser writes the same record at its fixed width of ten columns. */
  lemma SingleRootLegacy(st: seq<StructureRecord>)
    requires WrittenFrom(st, [[1]])
    ensures MatriciseTree(st) == Ok([[1, 0, 0, 0, 0, 0, 0, 0, 0, 0]])
  {
    MatriciseTreeReadsChains(st, [[1]]);
    assert PadOrTruncate([1], 10) == [1, 0, 0, 0, 0, 0, 0, 0, 0, 0];
    var legacy := MatriciseTree(st).value;
    assert legacy == [legacy[0]];
  }

  lemma LeafTableCount()
    ensures Occurrences([[1, 0, 0, 0, 0, 0, 0, 0, 0, 0], [1, 8, 0, 0, 0, 0, 0, 0, 0, 0]], 8) == 1
  {
    var m: Matrix := [[1, 0, 0, 0, 0, 0, 0, 0, 0, 0], [1, 8, 0, 0, 0, 0, 0, 0, 0, 0]];
    assert m[..1] == [[1, 0, 0, 0, 0, 0, 0, 0, 0, 0]];
    LeafRootRowCount();
    LeafRowCounts();
  }

  lemma LeafRowCounts()
    ensures RowCount([1, 0, 0, 0, 0, 0, 0, 0, 0, 0], 8) == 0
    ensures RowCount([1, 8, 0, 0, 0, 0, 0, 0, 0, 0], 8) == 1
  {
  }

  lemma LeafRootRowCount()
    ensures Occurrences([[1, 0, 0, 0, 0, 0, 0, 0, 0, 0]], 8) == 0
  {
    var front: Matrix := [[1, 0, 0, 0, 0, 0, 0, 0, 0, 0]];
    assert front[..0] == [];
    LeafRowCounts();
  }

  /** view.py's `findChildren` answers `None` for the leaf 8 of the table /1/, /1/8/. */
  lemma {:induction false} ViewLeafGivesNone(st: seq<StructureRecord>)
    requires WrittenFrom(st, [[1], [1, 8]])
    ensures View.FindChildren(8, st) == Ok(None)
  {
    MatriciseTreeReadsChains(st, [[1], [1, 8]]);
    assert PadOrTruncate([1], 10) == [1, 0, 0, 0, 0, 0, 0, 0, 0, 0];
    assert PadOrTruncate([1, 8], 10) == [1, 8, 0, 0, 0, 0, 0, 0, 0, 0];
    var m := MatriciseTree(st).value;
    assert m == [[1, 0, 0, 0, 0, 0, 0, 0, 0, 0], [1, 8, 0, 0, 0, 0, 0, 0, 0, 0]];
    LeafTableCount();
  }
}

=== FILE: hierarchy.dfy ===
/** The hierarchy queries of process.py over a path matrix: `_hasChildren`, `_findChildren`
    and `_findChildren_optimized`. The matrix is passed in rather than read from the
    module-level `MATRIX_TREE`. */
module Hierarchy {
  import opened Wrappers
  import opened SortedSets
  import opened Structures

  // ---------------------------------------------------------------------------
  // Counting occurrences (`(MATRIX_TREE == targetId).sum()`)
  // ---------------------------------------------------------------------------

  /** Number of cells of `row` equal to `t`. */
  function RowCount(row: seq<int>, t: int): nat
  {
    multiset(row)[t]
  }

  /** Number of cells of `m` equal to `t`. */
  function Occurrences(m: Matrix, t: int): (n: nat)
    ensures n == 0 <==> forall i :: !Holds(m, i, t)
  {
    if |m| == 0 then 0
    else
      var front := m[..|m| - 1];
      HoldsInFront(m, front, t);
      Occurrences(front, t) + RowCount(m[|m| - 1], t)
  }

  /** No row of `m` holds `t` exactly when no row before the last does and the last does not. */
  lemma HoldsInFront(m: Matrix, front: Matrix, t: int)
    requires |m| > 0 && front == m[..|m| - 1]
    ensures (forall i :: !Holds(m, i, t))
        <==> (forall i :: !Holds(front, i, t)) && RowCount(m[|m| - 1], t) == 0
  {
    if forall i :: !Holds(m, i, t) {
      forall i | Holds(front, i, t)
        ensures false
      {
        assert Holds(m, i, t);
      }
      assert !Holds(m, |m| - 1, t);
    }
    if (forall i :: !Holds(front, i, t)) && RowCount(m[|m| - 1], t) == 0 {
      forall i | Holds(m, i, t)
        ensures false
      {
        if i < |m| - 1 {
          assert Holds(front, i, t);
        }
      }
    }
  }

  /** The (row, column) positions of the cells of row `i` equal to `t`. */
  ghost function RowPositions(row: seq<int>, i: int, t: int): set<(int, int)>
  {
    set j | 0 <= j < |row| && row[j] == t :: (i, j)
  }

  /** The (row, column) positions of the cells of `m` equal to `t`. */
  ghost function Positions(m: Matrix, t: int): set<(int, int)>
  {
    set i, j | 0 <= i < |m| && 0 <= j < |m[i]| && m[i][j] == t :: (i, j)
  }

  lemma {:induction false} RowCountIsPositions(row: seq<int>, i: int, t: int)
    ensures RowCount(row, t) == |RowPositions(row, i, t)|
  {
    if |row| > 0 {
      var front := row[..|row| - 1];
      assert row == front + [row[|row| - 1]];
      RowCountIsPositions(front, i, t);
      var last := if row[|row| - 1] == t then {(i, |row| - 1)} else {};
      assert RowPositions(row, i, t) == RowPositions(front, i, t) + last;
      assert (i, |row| - 1) !in RowPositions(front, i, t);
    }
  }

  /** The recursive count is the number of distinct cells holding `t`. */
  lemma {:induction false} OccurrencesIsPositions(m: Matrix, t: int)
    ensures Occurrences(m, t) == |Positions(m, t)|
  {
    if |m| > 0 {
      var front := m[..|m| - 1];
      OccurrencesIsPositions(front, t);
      RowCountIsPositions(m[|m| - 1], |m| - 1, t);
      assert Positions(m, t) == Positions(front, t) + RowPositions(m[|m| - 1], |m| - 1, t);
      assert Positions(front, t) !! RowPositions(m[|m| - 1], |m| - 1, t);
    }
  }

  lemma AbsentIffNoPositions(m: Matrix, t: int)
    ensures Positions(m, t) == {} <==> forall i :: 0 <= i < |m| ==> t !in m[i]
  {
    if Positions(m, t) == {} {
      forall i | 0 <= i < |m|
        ensures t !in m[i]
      {
        forall j | 0 <= j < |m[i]|
          ensures m[i][j] != t
        {
          assert (i, j) !in Positions(m, t);
        }
      }
    } else {
      var p :| p in Positions(m, t);
      assert t in m[p.0];
    }
  }

  /** Two different cells holding `t` mean it occurs more than once. */
  lemma TwoPositions(m: Matrix, t: int, a: (int, int), b: (int, int))
    requires a in Positions(m, t) && b in Positions(m, t) && a != b
    ensures |Positions(m, t)| >= 2
  {
    var all := Positions(m, t);
    assert all == {a, b} + (all - {a, b});
    assert |{a, b}| == 2;
  }

  // ---------------------------------------------------------------------------
  // `_hasChildren`
  // ---------------------------------------------------------------------------

  /** The three answers of `_hasChildren`: `False`, `True` and `-1`. */
  datatype ChildFlag = NoChildren | HasSome | InvalidId

  /** Python truthiness of an answer: `-1` is truthy, so only `False` is falsy. */
  function Truthy(flag: ChildFlag): (truthy: bool)
    ensures truthy <==> flag == HasSome || flag == InvalidId
  {
    flag != NoChildren
  }

  /** `_hasChildren(targetId)`: `False` when `t` fills exactly one cell, `True` when it fills
      several, `-1` when it appears nowhere. */
  function HasChildren(m: Matrix, t: int): (flag: ChildFlag)
    ensures flag == NoChildren <==> |Positions(m, t)| == 1
    ensures flag == HasSome <==> |Positions(m, t)| > 1
    ensures flag == InvalidId <==> forall i :: 0 <= i < |m| ==> t !in m[i]
  {
    OccurrencesIsPositions(m, t);
    AbsentIffNoPositions(m, t);
    var repetitions := Occurrences(m, t);
    if repetitions == 1 then NoChildren
    else if repetitions > 1 then HasSome
    else InvalidId
  }

  // ---------------------------------------------------------------------------
  // Rows, depths and own ids
  // ---------------------------------------------------------------------------

  /** The rows holding `t` somewhere, in table order (`MATRIX_TREE[mask, :]`). */
  function Containing(m: Matrix, t: int): (rows: Matrix)
    ensures |rows| <= |m|
    ensures forall k :: 0 <= k < |rows| ==> t in rows[k] && rows[k] in m
    ensures forall i :: 0 <= i < |m| && t in m[i] ==> m[i] in rows
    ensures |rows| == 0 <==> forall i :: 0 <= i < |m| ==> t !in m[i]
  {
    if |m| == 0 then []
    else
      var rest := Containing(m[1..], t);
      assert forall i :: 1 <= i < |m| ==> m[i] == m[1..][i - 1];
      if t in m[0] then [m[0]] + rest else rest
  }

  /** Row `i` of the table holds `t`: the row `mask` keeps. */
  predicate Holds(m: Matrix, i: int, t: int)
  {
    0 <= i < |m| && t in m[i]
  }

  /** The indices of the rows holding `t`, ascending: the positions `mask` selects. */
  function HoldingIndices(m: Matrix, t: int): (idx: seq<nat>)
    ensures forall k :: 0 <= k < |idx| ==> Holds(m, idx[k], t)
    ensures forall a, b :: 0 <= a < b < |idx| ==> idx[a] < idx[b]
    ensures forall i :: Holds(m, i, t) ==> i in idx
  {
    if |m| == 0 then []
    else
      var rest := HoldingIndices(m[1..], t);
      var idx := if t in m[0] then [0] + Shift(rest) else Shift(rest);
      HoldingStep(m, t, rest, idx);
      idx
  }

  /** One step of the recursion: from the holding indices of the tail to those of the table. */
  lemma HoldingStep(m: Matrix, t: int, rest: seq<nat>, idx: seq<nat>)
    requires |m| > 0
    requires forall k :: 0 <= k < |rest| ==> Holds(m[1..], rest[k], t)
    requires forall a, b :: 0 <= a < b < |rest| ==> rest[a] < rest[b]
    requires forall i :: Holds(m[1..], i, t) ==> i in rest
    requires idx == if t in m[0] then [0] + Shift(rest) else Shift(rest)
    ensures forall k :: 0 <= k < |idx| ==> Holds(m, idx[k], t)
    ensures forall a, b :: 0 <= a < b < |idx| ==> idx[a] < idx[b]
    ensures forall i :: Holds(m, i, t) ==> i in idx
  {
    ShiftedHolding(m, t, rest);
    if t in m[0] {
      ConsHolding(m, t, Shift(rest));
    } else {
      assert !Holds(m, 0, t);
    }
  }

  /** Putting row 0 in front of the holding indices past it gives all of them, still ascending. */
  lemma ConsHolding(m: Matrix, t: int, shifted: seq<nat>)
    requires Holds(m, 0, t)
    requires forall k :: 0 <= k < |shifted| ==> 0 < shifted[k] && Holds(m, shifted[k], t)
    requires forall a, b :: 0 <= a < b < |shifted| ==> shifted[a] < shifted[b]
    requires forall i :: 0 < i && Holds(m, i, t) ==> i in shifted
    ensures forall k :: 0 <= k < |[0] + shifted| ==> Holds(m, ([0] + shifted)[k], t)
    ensures forall a, b :: 0 <= a < b < |[0] + shifted| ==> ([0] + shifted)[a] < ([0] + shifted)[b]
    ensures forall i :: Holds(m, i, t) ==> i in [0] + shifted
  {
    var idx := [0] + shifted;
    forall k | 0 <= k < |idx|
      ensures Holds(m, idx[k], t)
    {
      if k > 0 {
        assert idx[k] == shifted[k - 1];
      }
    }
    forall a, b | 0 <= a < b < |idx|
      ensures idx[a] < idx[b]
    {
      assert idx[b] == shifted[b - 1];
      if a > 0 {
        assert idx[a] == shifted[a - 1];
      }
    }
    forall i | Holds(m, i, t)
      ensures i in idx
    {
      if i > 0 {
        var k :| 0 <= k < |shifted| && shifted[k] == i;
        assert idx[k + 1] == i;
      }
    }
  }

  /** Every index moved one row down. */
  function Shift(idx: seq<nat>): (moved: seq<nat>)
    ensures |moved| == |idx|
    ensures forall k :: 0 <= k < |idx| ==> moved[k] == idx[k] + 1
  {
    seq(|idx|, k requires 0 <= k < |idx| => idx[k] + 1)
  }

  /** The holding indices of the table's tail, shifted down a row, are those of the table
      past its first row. */
  lemma ShiftedHolding(m: Matrix, t: int, rest: seq<nat>)
    requires |m| > 0
    requires forall k :: 0 <= k < |rest| ==> Holds(m[1..], rest[k], t)
    requires forall a, b :: 0 <= a < b < |rest| ==> rest[a] < rest[b]
    requires forall i :: Holds(m[1..], i, t) ==> i in rest
    ensures forall k :: 0 <= k < |rest| ==> 0 < Shift(rest)[k] && Holds(m, Shift(rest)[k], t)
    ensures forall a, b :: 0 <= a < b < |rest| ==> Shift(rest)[a] < Shift(rest)[b]
    ensures forall i :: 0 < i && Holds(m, i, t) ==> i in Shift(rest)
  {
    var shifted := Shift(rest);
    forall k | 0 <= k < |rest|
      ensures 0 < shifted[k] && Holds(m, shifted[k], t)
    {
      assert Holds(m[1..], rest[k], t);
      assert m[1..][rest[k]] == m[rest[k] + 1];
    }
    forall i | 0 < i && Holds(m, i, t)
      ensures i in shifted
    {
      assert m[1..][i - 1] == m[i];
      assert Holds(m[1..], i - 1, t);
      var k :| 0 <= k < |rest| && rest[k] == i - 1;
      assert shifted[k] == i;
    }
  }

  /** `MATRIX_TREE[mask, :]` is an order-preserving selection: its k-th row is the table row
      at the k-th index holding `t`, so table order and every copy of a repeated row are kept. */
  lemma {:induction false} ContainingSelectsInOrder(m: Matrix, t: int)
    ensures |Containing(m, t)| == |HoldingIndices(m, t)|
    ensures forall k :: 0 <= k < |Containing(m, t)| ==> Containing(m, t)[k] == m[HoldingIndices(m, t)[k]]
  {
    if |m| > 0 {
      ContainingSelectsInOrder(m[1..], t);
      var rows := Containing(m[1..], t);
      var rest := HoldingIndices(m[1..], t);
      SelectStep(m, rows, rest, t in m[0]);
      assert HoldingIndices(m, t) == if t in m[0] then [0] + Shift(rest) else Shift(rest);
      assert Containing(m, t) == if t in m[0] then [m[0]] + rows else rows;
    }
  }

  /** One step of the selection: rows picked from the tail at `rest` are the table's rows at
      `rest` shifted down, and putting row 0 in front keeps the correspondence. */
  lemma SelectStep(m: Matrix, rows: Matrix, rest: seq<nat>, keepFirst: bool)
    requires |m| > 0 && |rows| == |rest|
    requires forall k :: 0 <= k < |rest| ==> rest[k] < |m| - 1 && rows[k] == m[1..][rest[k]]
    ensures var picked := if keepFirst then [m[0]] + rows else rows;
            var idx := if keepFirst then [0] + Shift(rest) else Shift(rest);
            |picked| == |idx| && forall k :: 0 <= k < |picked| ==> idx[k] < |m| && picked[k] == m[idx[k]]
  {
    var shifted := Shift(rest);
    forall k | 0 <= k < |rows|
      ensures shifted[k] < |m| && rows[k] == m[shifted[k]]
    {
      assert m[1..][rest[k]] == m[rest[k] + 1];
    }
    if keepFirst {
      var picked := [m[0]] + rows;
      var idx := [0] + shifted;
      forall k | 0 <= k < |picked|
        ensures idx[k] < |m| && picked[k] == m[idx[k]]
      {
        if k > 0 {
          assert picked[k] == rows[k - 1] && idx[k] == shifted[k - 1];
        }
      }
    }
  }

  /** Column of the first 0 of `row`, or `|row|` when there is none: the depth of a path row. */
  function FirstZero(row: seq<int>): (z: nat)
    ensures z <= |row|
    ensures forall j :: 0 <= j < z ==> row[j] != 0
    ensures z < |row| ==> row[z] == 0
  {
    if |row| == 0 then 0
    else if row[0] == 0 then 0
    else 1 + FirstZero(row[1..])
  }

  /** The id `_findChildren` reads off a row: the entry before its first 0, or the last
      entry (Python's `row[-1]`) when the row holds no 0 or begins with one. */
  function OwnId(row: seq<int>): (id: int)
    requires |row| > 0
    ensures id in row
    ensures 0 < FirstZero(row) ==> id == row[FirstZero(row) - 1] && id != 0
    ensures FirstZero(row) == 0 ==> id == row[|row| - 1]
  {
    var z := FirstZero(row);
    if 0 < z < |row| then row[z - 1] else row[|row| - 1]
  }

  /** A path row: a non-empty chain of positive ids followed only by zeros. */
  ghost predicate IsPathRow(row: seq<int>)
  {
    && 0 < FirstZero(row)
    && (forall j :: 0 <= j < FirstZero(row) ==> row[j] > 0)
    && (forall j :: FirstZero(row) <= j < |row| ==> row[j] == 0)
  }

  /** A row the matricisers make from a chain of positive ids no longer than the width is
      a path row whose depth is the chain's length and whose own id is the chain's last id. */
  lemma PaddedChainIsPathRow(ids: seq<int>, w: nat)
    requires 0 < |ids| <= w
    requires forall j :: 0 <= j < |ids| ==> ids[j] > 0
    ensures IsPathRow(PadOrTruncate(ids, w))
    ensures FirstZero(PadOrTruncate(ids, w)) == |ids|
    ensures OwnId(PadOrTruncate(ids, w)) == ids[|ids| - 1]
  {
    FirstZeroAt(PadOrTruncate(ids, w), |ids|);
  }

  /** The first 0 is where the non-zero entries stop. */
  lemma {:induction false} FirstZeroAt(row: seq<int>, d: nat)
    requires d <= |row|
    requires forall j :: 0 <= j < d ==> row[j] != 0
    requires d < |row| ==> row[d] == 0
    ensures FirstZero(row) == d
  {
    if 0 < d {
      FirstZeroAt(row[1..], d - 1);
    }
  }

  predicate Distinct(xs: seq<int>)
  {
    forall i, j :: 0 <= i < j < |xs| ==> xs[i] != xs[j]
  }

  /** No two non-empty rows share an own id (the table's `id` column is a key). */
  ghost predicate DistinctOwnIds(m: Matrix)
  {
    forall i, j :: 0 <= i < |m| && 0 <= j < |m| && i != j && |m[i]| > 0 && |m[j]| > 0 ==>
      OwnId(m[i]) != OwnId(m[j])
  }

  function OwnIds(rows: Matrix): (ids: seq<int>)
    requires forall k :: 0 <= k < |rows| ==> |rows[k]| > 0
    ensures |ids| == |rows|
  {
    seq(|rows|, k requires 0 <= k < |rows| => OwnId(rows[k]))
  }

  lemma DistinctOwnIdsTail(m: Matrix)
    requires |m| > 0 && DistinctOwnIds(m)
    ensures DistinctOwnIds(m[1..])
  {
    var tail := m[1..];
    forall i, j | 0 <= i < |tail| && 0 <= j < |tail| && i != j && |tail[i]| > 0 && |tail[j]| > 0
      ensures OwnId(tail[i]) != OwnId(tail[j])
    {
      assert tail[i] == m[i + 1] && tail[j] == m[j + 1];
    }
  }

  lemma DistinctOwnIdsCons(row: seq<int>, rest: Matrix)
    requires |row| > 0 && DistinctOwnIds(rest)
    requires forall k :: 0 <= k < |rest| && |rest[k]| > 0 ==> OwnId(rest[k]) != OwnId(row)
    ensures DistinctOwnIds([row] + rest)
  {
    var rows := [row] + rest;
    forall a, b | 0 <= a < |rows| && 0 <= b < |rows| && a != b && |rows[a]| > 0 && |rows[b]| > 0
      ensures OwnId(rows[a]) != OwnId(rows[b])
    {
      if a > 0 {
        assert rows[a] == rest[a - 1];
      }
      if b > 0 {
        assert rows[b] == rest[b - 1];
      }
    }
  }

  /** No row after the first that holds `t` shares the first row's own id. */
  lemma HeadOwnIdIsNew(m: Matrix, t: int)
    requires |m| > 0 && |m[0]| > 0 && DistinctOwnIds(m)
    ensures forall k :: 0 <= k < |Containing(m[1..], t)| ==> OwnId(Containing(m[1..], t)[k]) != OwnId(m[0])
  {
    var rest := Containing(m[1..], t);
    forall k | 0 <= k < |rest|
      ensures OwnId(rest[k]) != OwnId(m[0])
    {
      var i :| 0 <= i < |m[1..]| && m[1..][i] == rest[k];
      assert m[i + 1] == rest[k];
    }
  }

  lemma {:induction false} ContainingKeepsDistinctOwnIds(m: Matrix, t: int)
    requires DistinctOwnIds(m)
    ensures DistinctOwnIds(Containing(m, t))
  {
    if |m| > 0 {
      DistinctOwnIdsTail(m);
      ContainingKeepsDistinctOwnIds(m[1..], t);
      if t in m[0] {
        HeadOwnIdIsNew(m, t);
        DistinctOwnIdsCons(m[0], Containing(m[1..], t));
      }
    }
  }

  // ---------------------------------------------------------------------------
  // `_findChildren`
  // ---------------------------------------------------------------------------

  /** The inner loop of `_findChildren` over one row, from column `col` on, extending the
      ids collected so far: at the first 0 whose left neighbour (`row[col-1]`, wrapping to
      the last column when `col` is 0) is new, that neighbour is added and the loop breaks;
      a neighbour already collected lets the scan go on; a row with no 0 adds its last
      entry unconditionally. */
  function ScanRow(row: seq<int>, col: nat, acc: seq<int>): (r: seq<int>)
    requires col <= |row|
    ensures |acc| <= |r| <= |acc| + 1 && r[..|acc|] == acc
    ensures |r| > |acc| ==> r[|acc|] in row
    decreases |row| - col
  {
    if col == |row| then acc
    else if row[col] == 0 then
      var previous := if col == 0 then row[|row| - 1] else row[col - 1];
      if previous !in acc then acc + [previous] else ScanRow(row, col + 1, acc)
    else if col == |row| - 1 then acc + [row[col]]
    else ScanRow(row, col + 1, acc)
  }

  /** The outer loop of `_findChildren` over the rows that hold the target. */
  function ScanRows(rows: Matrix, acc: seq<int>): (r: seq<int>)
    ensures |acc| <= |r| <= |acc| + |rows| && r[..|acc|] == acc
    ensures forall k :: |acc| <= k < |r| ==> exists q :: 0 <= q < |rows| && r[k] in rows[q]
  {
    if |rows| == 0 then acc
    else
      var once := ScanRow(rows[0], 0, acc);
      var r := ScanRows(rows[1..], once);
      assert forall q :: 1 <= q < |rows| ==> rows[q] == rows[1..][q - 1];
      assert forall k :: |acc| <= k < |once| ==> r[k] == once[k] by {
        assert r[..|once|] == once;
        forall k | |acc| <= k < |once| ensures r[k] == once[k] {
          assert r[..|once|][k] == r[k];
        }
      }
      assert r[..|acc|] == acc by {
        assert r[..|once|] == once && once[..|acc|] == acc;
        assert r[..|acc|] == r[..|once|][..|acc|];
      }
      r
  }

  /** `_findChildren(targetId)` of process.py: `[targetId]` when `_hasChildren` is `False`,
      otherwise the scan over the rows holding the target (none when it is absent). */
  function FindChildren(m: Matrix, t: int): (ids: seq<int>)
    ensures |Positions(m, t)| == 1 ==> ids == [t]
    ensures (forall i :: 0 <= i < |m| ==> t !in m[i]) ==> ids == []
    ensures |Positions(m, t)| != 1 ==> |ids| <= |Containing(m, t)|
    ensures |Positions(m, t)| != 1 ==>
      forall k :: 0 <= k < |ids| ==> exists i :: 0 <= i < |m| && t in m[i] && ids[k] in m[i]
  {
    var rows := Containing(m, t);
    if !Truthy(HasChildren(m, t)) then [t]
    else
      var ids := ScanRows(rows, []);
      assert forall k :: 0 <= k < |ids| ==> exists i :: 0 <= i < |m| && t in m[i] && ids[k] in m[i] by {
        forall k | 0 <= k < |ids|
          ensures exists i :: 0 <= i < |m| && t in m[i] && ids[k] in m[i]
        {
          var q :| 0 <= q < |rows| && ids[k] in rows[q];
          var i :| 0 <= i < |m| && m[i] == rows[q];
        }
      }
      ids
  }

  /** From any column up to the first 0, one row's scan adds exactly the row's own id,
      provided that id has not been collected yet. */
  lemma {:induction false} ScanRowAddsOwnId(row: seq<int>, col: nat, acc: seq<int>)
    requires col < |row| && col <= FirstZero(row)
    requires OwnId(row) !in acc
    ensures ScanRow(row, col, acc) == acc + [OwnId(row)]
    decreases |row| - col
  {
    if row[col] != 0 && col < |row| - 1 {
      ScanRowAddsOwnId(row, col + 1, acc);
    }
  }

  lemma {:induction false} ScanRowsAddsOwnIds(rows: Matrix, acc: seq<int>)
    requires forall k :: 0 <= k < |rows| ==> |rows[k]| > 0
    requires Distinct(OwnIds(rows))
    requires forall k :: 0 <= k < |rows| ==> OwnId(rows[k]) !in acc
    ensures ScanRows(rows, acc) == acc + OwnIds(rows)
  {
    if |rows| > 0 {
      var first := OwnId(rows[0]);
      ScanRowAddsOwnId(rows[0], 0, acc);
      var once := acc + [first];
      var tail := rows[1..];
      OwnIdsCons(rows);
      forall k | 0 <= k < |tail|
        ensures |tail[k]| > 0 && OwnId(tail[k]) !in once
      {
        assert tail[k] == rows[k + 1];
        assert OwnId(tail[k]) == OwnIds(rows)[k + 1] != OwnIds(rows)[0];
      }
      DistinctTail(OwnIds(rows));
      ScanRowsAddsOwnIds(tail, once);
      AppendAfter(acc, first, OwnIds(tail), OwnIds(rows));
    }
  }

  lemma OwnIdsCons(rows: Matrix)
    requires |rows| > 0 && forall k :: 0 <= k < |rows| ==> |rows[k]| > 0
    ensures OwnIds(rows) == [OwnId(rows[0])] + OwnIds(rows[1..])
    ensures OwnIds(rows[1..]) == OwnIds(rows)[1..]
  {
    assert OwnIds(rows)[1..] == OwnIds(rows[1..]);
  }

  lemma AppendAfter(acc: seq<int>, first: int, rest: seq<int>, whole: seq<int>)
    requires whole == [first] + rest
    ensures (acc + [first]) + rest == acc + whole
  {
  }

  lemma DistinctTail(xs: seq<int>)
    requires |xs| > 0 && Distinct(xs)
    ensures Distinct(xs[1..])
  {
    forall i, j | 0 <= i < j < |xs| - 1
      ensures xs[1..][i] != xs[1..][j]
    {
      assert xs[1..][i] == xs[i + 1] && xs[1..][j] == xs[j + 1];
    }
  }

  /** When the target does not fill exactly one cell and the table's own ids are distinct,
      `_findChildren` lists, in table order and once each, the own id of every row holding the
      target. An absent target gives no rows and so an empty result. */
  lemma {:induction false} FindChildrenCollectsOwnIds(m: Matrix, t: int)
    requires |Positions(m, t)| != 1
    requires DistinctOwnIds(m)
    ensures FindChildren(m, t) == OwnIds(Containing(m, t))
    ensures Distinct(FindChildren(m, t))
  {
    var rows := Containing(m, t);
    ContainingKeepsDistinctOwnIds(m, t);
    assert Distinct(OwnIds(rows)) by {
      forall a, b | 0 <= a < b < |rows|
        ensures OwnIds(rows)[a] != OwnIds(rows)[b]
      {
      }
    }
    ScanRowsAddsOwnIds(rows, []);
  }

  /** From any column up to the first 0, one row's scan ends up holding the row's own id,
      either appended by it or already collected. */
  lemma {:induction false} ScanRowHasOwnId(row: seq<int>, col: nat, acc: seq<int>)
    requires col < |row| && col <= FirstZero(row)
    ensures OwnId(row) in ScanRow(row, col, acc)
    decreases |row| - col
  {
    var r := ScanRow(row, col, acc);
    if row[col] == 0 {
      var previous := if col == 0 then row[|row| - 1] else row[col - 1];
      assert previous == OwnId(row);
      if previous in acc {
        assert r[..|acc|] == acc;
        var j :| 0 <= j < |acc| && acc[j] == previous;
        assert r[j] == previous;
      }
    } else if col < |row| - 1 {
      ScanRowHasOwnId(row, col + 1, acc);
    }
  }

  /** The scan over the holding rows ends up holding every row's own id. */
  lemma {:induction false} ScanRowsHasOwnIds(rows: Matrix, acc: seq<int>, q: nat)
    requires q < |rows| && |rows[q]| > 0
    ensures OwnId(rows[q]) in ScanRows(rows, acc)
  {
    var once := ScanRow(rows[0], 0, acc);
    var r := ScanRows(rows[1..], once);
    if q == 0 {
      ScanRowHasOwnId(rows[0], 0, acc);
      assert r[..|once|] == once;
      var j :| 0 <= j < |once| && once[j] == OwnId(rows[0]);
      assert r[j] == OwnId(rows[0]);
    } else {
      assert rows[1..][q - 1] == rows[q];
      ScanRowsHasOwnIds(rows[1..], once, q - 1);
    }
  }

  /** `_findChildren(t)` includes `t` whenever `t` is the own id of some row. */
  lemma {:induction false} FindChildrenIncludesTarget(m: Matrix, t: int, i: nat)
    requires i < |m| && |m[i]| > 0 && OwnId(m[i]) == t
    ensures t in FindChildren(m, t)
  {
    OwnIdInFindChildren(m, t, i);
  }

  /** When the target does not fill exactly one cell, the own id of every row holding it is
      in `_findChildren`'s result, whether or not own ids repeat. */
  lemma {:induction false} OwnIdInFindChildren(m: Matrix, t: int, i: nat)
    requires i < |m| && |m[i]| > 0 && t in m[i]
    ensures |Positions(m, t)| != 1 ==> OwnId(m[i]) in FindChildren(m, t)
  {
    if |Positions(m, t)| != 1 {
      var rows := Containing(m, t);
      var k :| 0 <= k < |rows| && rows[k] == m[i];
      ScanRowsHasOwnIds(rows, [], k);
    }
  }

  // ---------------------------------------------------------------------------
  // `_findChildren_optimized`
  // ---------------------------------------------------------------------------

  /** Column of the first occurrence of `t` in `row` (`np.argmax(row == t)`). */
  function IndexOf(row: seq<int>, t: int): (k: nat)
    requires t in row
    ensures k < |row| && row[k] == t
    ensures forall j :: 0 <= j < k ==> row[j] != t
  {
    if row[0] == t then 0 else 1 + IndexOf(row[1..], t)
  }

  /** The row's first `t` sits in its last column, so `child_cols` points past the end. */
  predicate TargetInLastColumn(row: seq<int>, t: int)
  {
    t in row && IndexOf(row, t) == |row| - 1
  }

  /** Some row has its first `t` in its last column: the fancy indexing would raise. */
  predicate Overflows(rows: Matrix, t: int)
  {
    exists k :: 0 <= k < |rows| && TargetInLastColumn(rows[k], t)
  }

  /** The row holds `t` and has a column after its first `t`. */
  predicate HasNextColumn(row: seq<int>, t: int)
  {
    t in row && IndexOf(row, t) + 1 < |row|
  }

  /** `x` is the entry right after the first `t` of `row`. */
  predicate IsNextAfterTarget(row: seq<int>, t: int, x: int)
  {
    HasNextColumn(row, t) && row[IndexOf(row, t) + 1] == x
  }

  /** Raised by the fancy indexing when some `child_cols` entry is out of bounds. */
  datatype QueryError = IndexError

  /** `child_ids`: for each row, the entry right after the target's first occurrence. */
  function NextAfterTarget(rows: Matrix, t: int): (children: seq<int>)
    requires forall k :: 0 <= k < |rows| ==> HasNextColumn(rows[k], t)
    ensures |children| == |rows|
    ensures forall k :: 0 <= k < |rows| ==> IsNextAfterTarget(rows[k], t, children[k])
  {
    seq(|rows|, k requires 0 <= k < |rows| =>
      assert HasNextColumn(rows[k], t);
      rows[k][IndexOf(rows[k], t) + 1])
  }

  /** `child_ids[child_ids != 0]`. */
  function NonZero(xs: seq<int>): (r: seq<int>)
    ensures forall x :: x in r <==> x in xs && x != 0
  {
    if |xs| == 0 then []
    else
      var rest := NonZero(xs[1..]);
      assert forall x :: x in xs <==> x == xs[0] || x in xs[1..] by {
        assert xs == [xs[0]] + xs[1..];
      }
      if xs[0] != 0 then [xs[0]] + rest else rest
  }

  /** Some row overflows exactly when some row holding the target overflows; when none
      does, every row holding the target has a column after it. */
  lemma LastColumnAmongContaining(m: Matrix, t: int)
    ensures Overflows(Containing(m, t), t) <==> Overflows(m, t)
    ensures !Overflows(m, t) ==>
            forall k :: 0 <= k < |Containing(m, t)| ==> HasNextColumn(Containing(m, t)[k], t)
  {
    var rows := Containing(m, t);
    if Overflows(rows, t) {
      var k :| 0 <= k < |rows| && TargetInLastColumn(rows[k], t);
      assert rows[k] in m;
      var i :| 0 <= i < |m| && m[i] == rows[k];
      assert TargetInLastColumn(m[i], t);
      assert Overflows(m, t);
    }
    if Overflows(m, t) {
      var i :| 0 <= i < |m| && TargetInLastColumn(m[i], t);
      assert m[i] in rows;
      var k :| 0 <= k < |rows| && rows[k] == m[i];
      assert TargetInLastColumn(rows[k], t);
      assert Overflows(rows, t);
    } else {
      forall k | 0 <= k < |rows|
        ensures HasNextColumn(rows[k], t)
      {
        assert t in rows[k] && rows[k] in m;
        var i :| 0 <= i < |m| && m[i] == rows[k];
        assert !TargetInLastColumn(m[i], t);
        assert IndexOf(rows[k], t) < |rows[k]|;
      }
    }
  }

  /** The entries `child_ids` collects are exactly the entries right after the target's
      first occurrence in the rows of the table. */
  lemma NextAfterTargetEntries(m: Matrix, t: int)
    requires forall k :: 0 <= k < |Containing(m, t)| ==> HasNextColumn(Containing(m, t)[k], t)
    ensures forall x :: x in NextAfterTarget(Containing(m, t), t) <==>
      exists i :: 0 <= i < |m| && IsNextAfterTarget(m[i], t, x)
  {
    var rows := Containing(m, t);
    var children := NextAfterTarget(rows, t);
    forall x
      ensures x in children <==> exists i :: 0 <= i < |m| && IsNextAfterTarget(m[i], t, x)
    {
      if exists i :: 0 <= i < |m| && IsNextAfterTarget(m[i], t, x) {
        var i :| 0 <= i < |m| && IsNextAfterTarget(m[i], t, x);
        assert m[i] in rows;
        var k :| 0 <= k < |rows| && rows[k] == m[i];
        assert children[k] == x;
      }
      if x in children {
        var k :| 0 <= k < |rows| && children[k] == x;
        assert rows[k] in m;
        var i :| 0 <= i < |m| && m[i] == rows[k];
        assert IsNextAfterTarget(m[i], t, x);
      }
    }
  }

  /** `_findChildren_optimized(targetId)`: `[targetId]` when the id is absent; an `IndexError`
      when some row holding it has its first occurrence in the last column; otherwise, sorted
      and without repeats, the target and every non-zero entry right after its first
      occurrence in a row. */
  function FindChildrenOptimized(m: Matrix, t: int): (r: Result<seq<int>, QueryError>)
    ensures (forall i :: 0 <= i < |m| ==> t !in m[i]) ==> r == Ok([t])
    ensures r.Err? <==> Overflows(m, t)
    ensures r.Ok? ==> StrictlyAscending(r.value) && t in r.value
    ensures r.Ok? ==> (0 in r.value <==> t == 0)
    ensures r.Ok? ==> forall x :: x in r.value <==>
      x == t || (x != 0 && exists i :: 0 <= i < |m| && IsNextAfterTarget(m[i], t, x))
  {
    var rows := Containing(m, t);
    LastColumnAmongContaining(m, t);
    if |rows| == 0 then Ok([t])
    else if Overflows(rows, t) then Err(IndexError)
    else
      NextAfterTargetEntries(m, t);
      Ok(Unique(NonZero(NextAfterTarget(rows, t)) + [t]))
  }

  // ---------------------------------------------------------------------------
  // Comparing the two versions
  // ---------------------------------------------------------------------------

  /** Every prefix of every path row's chain is itself a row of the table (written at the same width). */
  ghost predicate PrefixClosed(m: Matrix)
  {
    forall i, d :: 0 <= i < |m| && 1 <= d <= FirstZero(m[i]) ==> PadOrTruncate(m[i][..d], |m[i]|) in m
  }

  /** The prefix of depth `d` of a path row has depth `d` and own id `row[d-1]`. */
  lemma PrefixOfPathRow(row: seq<int>, d: nat)
    requires IsPathRow(row) && 1 <= d <= FirstZero(row)
    ensures var p := PadOrTruncate(row[..d], |row|);
      |p| == |row| && FirstZero(p) == d && OwnId(p) == row[d - 1] &&
      (forall j :: 0 <= j < d ==> p[j] == row[j]) && (forall j :: d <= j < |p| ==> p[j] == 0)
  {
    FirstZeroAt(PadOrTruncate(row[..d], |row|), d);
  }

  /** A positive target on a path row lies within its chain. */
  lemma TargetWithinChain(row: seq<int>, t: int)
    requires IsPathRow(row) && t > 0 && t in row
    ensures IndexOf(row, t) < FirstZero(row)
  {
  }

  /** On a prefix-closed table of path rows the target's own prefix row holds it and
      has it as own id, so `_findChildren` returns the target. */
  lemma {:induction false} TargetInOriginal(m: Matrix, t: int, i: nat)
    requires t > 0 && i < |m| && t in m[i]
    requires forall i :: 0 <= i < |m| ==> IsPathRow(m[i])
    requires PrefixClosed(m)
    ensures t in FindChildren(m, t)
  {
    var k := IndexOf(m[i], t);
    TargetWithinChain(m[i], t);
    PrefixOfPathRow(m[i], k + 1);
    var p := PadOrTruncate(m[i][..k + 1], |m[i]|);
    assert p in m;
    var ip :| 0 <= ip < |m| && m[ip] == p;
    FindChildrenIncludesTarget(m, t, ip);
  }

  /** On a prefix-closed table of path rows, a non-zero entry right after the target in some
      row is the own id of that row's prefix; the target then fills at least two cells
      (that prefix and the target's own prefix), so `_findChildren` returns the entry. */
  lemma {:induction false} NextEntryInOriginal(m: Matrix, t: int, i: nat, x: int)
    requires t > 0 && x != 0 && i < |m| && IsNextAfterTarget(m[i], t, x)
    requires forall i :: 0 <= i < |m| ==> IsPathRow(m[i])
    requires PrefixClosed(m)
    ensures x in FindChildren(m, t)
  {
    var row := m[i];
    var k := IndexOf(row, t);
    TargetWithinChain(row, t);
    assert k + 1 < FirstZero(row);
    PrefixOfPathRow(row, k + 2);
    PrefixOfPathRow(row, k + 1);
    var p := PadOrTruncate(row[..k + 2], |row|);
    var q := PadOrTruncate(row[..k + 1], |row|);
    assert p in m && q in m;
    var ip :| 0 <= ip < |m| && m[ip] == p;
    var iq :| 0 <= iq < |m| && m[iq] == q;
    assert p[k + 1] == x && q[k + 1] == 0;
    assert (ip, k) in Positions(m, t) && (iq, k) in Positions(m, t);
    TwoPositions(m, t, (ip, k), (iq, k));
    OwnIdInFindChildren(m, t, ip);
  }

  /** On a prefix-closed table of path rows, everything `_findChildren_optimized` returns for
      a present positive target is also returned by `_findChildren`: the optimized version
      never invents an id, it can only stop sooner. */
  lemma {:induction false} OptimizedWithinOriginal(m: Matrix, t: int)
    requires t > 0
    requires forall i :: 0 <= i < |m| ==> IsPathRow(m[i])
    requires PrefixClosed(m)
    requires exists i :: 0 <= i < |m| && t in m[i]
    requires FindChildrenOptimized(m, t).Ok?
    ensures forall x :: x in FindChildrenOptimized(m, t).value ==> x in FindChildren(m, t)
  {
    var opt := FindChildrenOptimized(m, t).value;
    forall x | x in opt
      ensures x in FindChildren(m, t)
    {
      if x == t {
        var i :| 0 <= i < |m| && t in m[i];
        TargetInOriginal(m, t, i);
      } else {
        var i :| 0 <= i < |m| && IsNextAfterTarget(m[i], t, x);
        NextEntryInOriginal(m, t, i, x);
      }
    }
  }
}

=== FILE: masks.dfy ===
/** The boolean masks `makeRegionByID` and `makeBrainContour` build over the label volume
    before handing them to the contouring library. The volume is flattened: every mask is
    computed voxel by voxel, so the voxel order does not matter. */
module Masks {
  import opened Wrappers
  import opened Structures
  import opened Hierarchy

  /** The region mask `makeRegionByID` contours: whether each voxel's label is one of `ids`. */
  ghost function MaskOf(av: seq<int>, ids: seq<int>): seq<bool>
  {
    seq(|av|, v requires 0 <= v < |av| => av[v] in ids)
  }

  /** The mask loop of `makeRegionByID`: start from an all-false volume and OR in
      `av == index` for every index in turn. */
  method RegionMask(av: seq<int>, ids: seq<int>) returns (region: seq<bool>)
    ensures |region| == |av|
    ensures forall v :: 0 <= v < |av| ==> (region[v] <==> av[v] in ids)
    ensures region == MaskOf(av, ids)
  {
    region := seq(|av|, _ => false);
    var k := 0;
    while k < |ids|
      invariant 0 <= k <= |ids|
      invariant |region| == |av|
      invariant forall v :: 0 <= v < |av| ==> (region[v] <==> av[v] in ids[..k])
    {
      var index := ids[k];
      assert ids[..k + 1] == ids[..k] + [index];
      region := seq(|av|, v requires 0 <= v < |av| => region[v] || av[v] == index);
      k := k + 1;
    }
    assert ids[..k] == ids;
  }

  /** `makeRegionByID(av, targetId)` of process.py, up to the contouring: the mask of the ids
      `_findChildren_optimized` returns, or its `IndexError`. */
  method MakeRegionMask(av: seq<int>, m: Matrix, t: int) returns (r: Result<seq<bool>, QueryError>)
    ensures r.Err? <==> Overflows(m, t)
    ensures r.Ok? ==> r.value == MaskOf(av, FindChildrenOptimized(m, t).value)
    ensures r.Ok? ==> forall v :: 0 <= v < |av| && av[v] == t ==> r.value[v]
    ensures r.Ok? ==> forall v :: 0 <= v < |av| && av[v] == 0 && t != 0 ==> !r.value[v]
  {
    match FindChildrenOptimized(m, t)
    case Err(e) =>
      r := Err(e);
    case Ok(indices) =>
      var region := RegionMask(av, indices);
      r := Ok(region);
  }

  /** The mask `makeBrainContour` contours: labels above 1, leaving out the background 0 and
      the whole-brain outline 1. */
  function BrainMask(av: seq<int>): (brain: seq<bool>)
    ensures |brain| == |av|
    ensures forall v :: 0 <= v < |av| ==> (brain[v] <==> av[v] > 1)
  {
    seq(|av|, v requires 0 <= v < |av| => av[v] > 1)
  }

  /** The labels of the volume above 1, in voxel order. */
  function LabelsAbove1(av: seq<int>): (labels: seq<int>)
    ensures forall x :: x in labels <==> x in av && x > 1
  {
    if |av| == 0 then []
    else
      var rest := LabelsAbove1(av[1..]);
      assert forall x :: x in av <==> x == av[0] || x in av[1..] by {
        assert av == [av[0]] + av[1..];
      }
      if av[0] > 1 then [av[0]] + rest else rest
  }

  /** The brain mask is the region mask of every label above 1 present in the volume, and
      never marks a background or outline voxel. */
  lemma BrainMaskIsRegionMask(av: seq<int>)
    ensures BrainMask(av) == MaskOf(av, LabelsAbove1(av))
    ensures forall v :: 0 <= v < |av| && (av[v] == 0 || av[v] == 1) ==> !BrainMask(av)[v]
  {
  }
}

=== FILE: regions.dfy ===
/** `getRegionData`: looking a structure up by its acronym. */
module Regions {
  import opened Wrappers
  import opened Structures

  /** The dictionary `getRegionData` returns: the structure's id and name, and the acronym asked for. */
  datatype RegionData = RegionData(id: int, name: string, abbreviation: string)

  /** Record `i` is the first one whose acronym is `abbreviation`. */
  ghost predicate IsFirstMatch(records: seq<StructureRecord>, abbreviation: string, i: int)
  {
    && 0 <= i < |records|
    && records[i].acronym == abbreviation
    && forall j :: 0 <= j < i ==> records[j].acronym != abbreviation
  }

  /** `getRegionData(abbreviation)`: `None` (with a printed warning) when no acronym matches
      exactly, otherwise the id and name of the first matching record. */
  function GetRegionData(records: seq<StructureRecord>, abbreviation: string): (r: Option<RegionData>)
    ensures r.None? <==> forall i :: 0 <= i < |records| ==> records[i].acronym != abbreviation
    ensures r.Some? ==> exists i :: IsFirstMatch(records, abbreviation, i) &&
                                   r.value == RegionData(records[i].id, records[i].name, abbreviation)
  {
    if |records| == 0 then None
    else if records[0].acronym == abbreviation then
      assert IsFirstMatch(records, abbreviation, 0);
      Some(RegionData(records[0].id, records[0].name, abbreviation))
    else
      var r := GetRegionData(records[1..], abbreviation);
      assert forall i :: 1 <= i < |records| ==> records[i] == records[1..][i - 1];
      assert r.Some? ==> exists i :: IsFirstMatch(records, abbreviation, i) &&
                                    r.value == RegionData(records[i].id, records[i].name, abbreviation) by {
        if r.Some? {
          var k :| IsFirstMatch(records[1..], abbreviation, k) &&
                   r.value == RegionData(records[1..][k].id, records[1..][k].name, abbreviation);
          assert IsFirstMatch(records, abbreviation, k + 1);
        }
      }
      r
  }

  /** Acronyms are keys: with no two records sharing one, the answer is the matching record
      wherever it sits in the table. */
  lemma GetRegionDataOfKey(records: seq<StructureRecord>, i: nat)
    requires i < |records|
    requires forall a, b :: 0 <= a < b < |records| ==> records[a].acronym != records[b].acronym
    ensures GetRegionData(records, records[i].acronym) ==
      Some(RegionData(records[i].id, records[i].name, records[i].acronym))
  {
    var r := GetRegionData(records, records[i].acronym);
    var k :| IsFirstMatch(records, records[i].acronym, k) &&
             r.value == RegionData(records[k].id, records[k].name, records[i].acronym);
    assert k == i;
  }
}

=== FILE: sorted_sets.dfy ===
/** NumPy's `np.unique` on integer ids: the distinct values of a sequence, in ascending order. */
module SortedSets {

  predicate StrictlyAscending(xs: seq<int>)
  {
    forall i, j :: 0 <= i < j < |xs| ==> xs[i] < xs[j]
  }

  /** Inserts `x` into an ascending, duplicate-free sequence, keeping it so. */
  function Insert(xs: seq<int>, x: int): (r: seq<int>)
    requires StrictlyAscending(xs)
    ensures StrictlyAscending(r)
    ensures forall y :: y in r <==> y in xs || y == x
  {
    if |xs| == 0 then [x]
    else
      assert forall y :: y in xs <==> y == xs[0] || y in xs[1..] by {
        assert xs == [xs[0]] + xs[1..];
      }
      if x < xs[0] then
        assert forall i :: 0 < i < |xs| ==> xs[0] < xs[i];
        [x] + xs
      else if x == xs[0] then xs
      else
        var rest := Insert(xs[1..], x);
        assert forall y :: y in xs[1..] ==> xs[0] < y;
        assert forall i :: 0 <= i < |rest| ==> xs[0] < rest[i] by {
          forall i | 0 <= i < |rest| ensures xs[0] < rest[i] {
            assert rest[i] in rest;
          }
        }
        [xs[0]] + rest
  }

  /** `np.unique(xs)`: every value of `xs` exactly once, in ascending order. */
  function Unique(xs: seq<int>): (r: seq<int>)
    ensures StrictlyAscending(r)
    ensures forall y :: y in r <==> y in xs
  {
    if |xs| == 0 then []
    else
      var r := Insert(Unique(xs[..|xs| - 1]), xs[|xs| - 1]);
      assert forall y :: y in xs <==> y in xs[..|xs| - 1] || y == xs[|xs| - 1] by {
        assert xs == xs[..|xs| - 1] + [xs[|xs| - 1]];
      }
      r
  }

  /** An ascending duplicate-free sequence is determined by its elements, so `Unique`
      is the only possible answer of `np.unique`. */
  lemma {:induction false} AscendingDeterminedByElements(xs: seq<int>, ys: seq<int>)
    requires StrictlyAscending(xs) && StrictlyAscending(ys)
    requires forall y :: y in xs <==> y in ys
    ensures xs == ys
  {
    assert |xs| == 0 <==> |ys| == 0 by {
      if |xs| > 0 {
        assert xs[0] in xs;
      }
      if |ys| > 0 {
        assert ys[0] in ys;
      }
    }
    if |xs| > 0 {
      assert ys[0] <= xs[0] by {
        assert xs[0] in xs;
        var j :| 0 <= j < |ys| && ys[j] == xs[0];
        assert j == 0 || ys[0] < ys[j];
      }
      assert xs[0] <= ys[0] by {
        assert ys[0] in ys;
        var j :| 0 <= j < |xs| && xs[j] == ys[0];
        assert j == 0 || xs[0] < xs[j];
      }
      forall y
        ensures y in xs[1..] <==> y in ys[1..]
      {
        if y in xs[1..] {
          assert y in ys && y != ys[0];
        }
        if y in ys[1..] {
          assert y in xs && y != xs[0];
        }
      }
      AscendingDeterminedByElements(xs[1..], ys[1..]);
      assert xs == [xs[0]] + xs[1..] && ys == [ys[0]] + ys[1..];
    }
  }
}

=== FILE: structures.dfy ===
/** The structure-tree table and the two ways `process.py` / `view.py` turn its
    `structure_id_path` column ("/997/8/567/", root first) into a path matrix of integer ids. */
module Structures {
  import opened Wrappers
  import opened Text

  /** One row of the structure-tree table: the columns the core reads. */
  datatype StructureRecord = StructureRecord(id: int, acronym: string, name: string, structureIdPath: string)

  /** A path matrix: one row of integer ids per structure record, 0 meaning "no structure at this depth". */
  type Matrix = seq<seq<int>>

  /** The `ValueError` raised by `astype(int)` when a kept token is not an integer. */
  datatype PathError = MalformedPath

  const Slash := '/'

  /** `_matriciseTree` appends "0/" until a path holds this many slashes ... */
  const PaddedSlashes: nat := 12

  /** ... and keeps columns 1..10 of the split (`iloc[:, 1:11]`). */
  const LegacyWidth: nat := 10

  /** `_matriciseTree_optimized` keeps at most columns 1..11 (`iloc[:, 1:12]`). */
  const MaxOptimizedWidth: nat := 11

  /** The reference shape of a row: the first `w` ids of the chain `ids`, right-padded with 0. */
  function PadOrTruncate(ids: seq<int>, w: nat): (row: seq<int>)
  {
    seq(w, j requires 0 <= j < w => if j < |ids| then ids[j] else 0)
  }

  /** The `structure_id_path` text of a structure whose ancestor chain, root first and itself last, is `ids`. */
  function FormatPath(ids: seq<nat>): string
  {
    Join([""] + ShowAll(ids) + [""], Slash)
  }

  function ShowAll(ids: seq<nat>): (tokens: seq<string>)
    ensures |tokens| == |ids|
    ensures forall i :: 0 <= i < |ids| ==> tokens[i] == ShowNat(ids[i])
  {
    seq(|ids|, i requires 0 <= i < |ids| => ShowNat(ids[i]))
  }

  // ---------------------------------------------------------------------------
  // Parsing tokens (`astype(int)`)
  // ---------------------------------------------------------------------------

  /** Every token of the row is an integer `astype(int)` accepts. */
  predicate AllDecimal(tokens: seq<string>)
  {
    forall j :: 0 <= j < |tokens| ==> IsDecimal(tokens[j])
  }

  /** Converts one row of tokens; `None` when some token is not an integer. */
  function ParseRow(tokens: seq<string>): (r: Option<seq<int>>)
    ensures r.Some? <==> AllDecimal(tokens)
    ensures r.Some? ==> |r.value| == |tokens|
    ensures r.Some? ==> forall j :: 0 <= j < |tokens| ==> ParseNat(tokens[j]) == Some(r.value[j])
  {
    if |tokens| == 0 then Some([])
    else
      match (ParseNat(tokens[0]), ParseRow(tokens[1..]))
      case (Some(v), Some(rest)) => Some([v as int] + rest)
      case _ => None
  }

  /** Converts every row; `None` when any token of any row is not an integer. */
  function ParseTable(table: seq<seq<string>>): (r: Option<Matrix>)
    ensures r.Some? <==> forall i :: 0 <= i < |table| ==> ParseRow(table[i]).Some?
    ensures r.Some? ==> |r.value| == |table|
    ensures r.Some? ==> forall i :: 0 <= i < |table| ==> Some(r.value[i]) == ParseRow(table[i])
  {
    if |table| == 0 then Some([])
    else
      match (ParseRow(table[0]), ParseTable(table[1..]))
      case (Some(row), Some(rest)) => Some([row] + rest)
      case _ => None
  }

  // ---------------------------------------------------------------------------
  // `_matriciseTree` (and its copy `matriciseTree` in view.py)
  // ---------------------------------------------------------------------------

  /** The number of "0/" pieces `_matriciseTree` appends: none once the path has 12 slashes. */
  function LegacyPaddingCount(path: string): (n: nat)
    ensures CountChar(path, Slash) + n >= PaddedSlashes
    ensures CountChar(path, Slash) <= PaddedSlashes ==> CountChar(path, Slash) + n == PaddedSlashes
    ensures CountChar(path, Slash) >= PaddedSlashes ==> n == 0
  {
    if CountChar(path, Slash) < PaddedSlashes then PaddedSlashes - CountChar(path, Slash) else 0
  }

  function LegacyPadded(path: string): (padded: string)
    ensures CountChar(padded, Slash) >= PaddedSlashes
  {
    CountCharAppend(path, Repeat("0/", LegacyPaddingCount(path)), Slash);
    CountCharRepeat("0/", LegacyPaddingCount(path), Slash);
    path + Repeat("0/", LegacyPaddingCount(path))
  }

  /** The tokens in columns 1..10 of the split padded path. */
  function LegacyTokens(path: string): (tokens: seq<string>)
    ensures |tokens| == LegacyWidth
    ensures forall k :: 0 <= k < |tokens| ==> Slash !in tokens[k]
  {
    Split(LegacyPadded(path), Slash)[1..LegacyWidth + 1]
  }

  /** `_matriciseTree(st)`: pad, split, keep columns 1..10, convert to integers. */
  function MatriciseTree(st: seq<StructureRecord>): (r: Result<Matrix, PathError>)
    ensures r.Ok? ==> |r.value| == |st|
    ensures r.Ok? ==> forall i :: 0 <= i < |st| ==> |r.value[i]| == LegacyWidth
    ensures r.Err? <==> exists i :: 0 <= i < |st| && !AllDecimal(LegacyTokens(st[i].structureIdPath))
  {
    var table := seq(|st|, i requires 0 <= i < |st| => LegacyTokens(st[i].structureIdPath));
    assert forall i :: 0 <= i < |st| ==> (ParseRow(table[i]).Some? <==> AllDecimal(LegacyTokens(st[i].structureIdPath)));
    match ParseTable(table)
    case Some(m) => Ok(m)
    case None => Err(MalformedPath)
  }

  // ---------------------------------------------------------------------------
  // `_matriciseTree_optimized`
  // ---------------------------------------------------------------------------

  /** The number of columns `str.split('/', expand=True)` produces: the longest split. */
  function MaxPieceCount(st: seq<StructureRecord>): (columns: nat)
    ensures forall i :: 0 <= i < |st| ==> |Split(st[i].structureIdPath, Slash)| <= columns
  {
    if |st| == 0 then 0
    else
      var here := |Split(st[0].structureIdPath, Slash)|;
      var rest := MaxPieceCount(st[1..]);
      if here < rest then rest else here
  }

  /** The longest split is the split of some record. */
  lemma {:induction false} MaxPieceCountAttained(st: seq<StructureRecord>)
    requires |st| > 0
    ensures exists i :: 0 <= i < |st| && |Split(st[i].structureIdPath, Slash)| == MaxPieceCount(st)
  {
    if |st| > 1 && |Split(st[0].structureIdPath, Slash)| < MaxPieceCount(st[1..]) {
      MaxPieceCountAttained(st[1..]);
      var i :| 0 <= i < |st[1..]| && |Split(st[1..][i].structureIdPath, Slash)| == MaxPieceCount(st[1..]);
      assert st[1..][i] == st[i + 1];
    } else {
      assert |Split(st[0].structureIdPath, Slash)| == MaxPieceCount(st);
    }
  }

  /** How many of the columns 1..11 exist in the split table. */
  function OptimizedWidth(st: seq<StructureRecord>): (w: nat)
    ensures w <= MaxOptimizedWidth
  {
    var columns := MaxPieceCount(st);
    if columns <= 1 then 0
    else if columns < MaxOptimizedWidth + 1 then columns - 1
    else MaxOptimizedWidth
  }

  /** Column `j` of the kept columns: the piece after `j` slashes, with a missing piece
      (`fillna`) and an empty piece (`replace('', '0')`) both read as "0". */
  function OptimizedCell(pieces: seq<string>, j: nat): (cell: string)
    ensures cell != ""
    ensures j + 1 < |pieces| && pieces[j + 1] != "" ==> cell == pieces[j + 1]
    ensures cell == "0" || (j + 1 < |pieces| && cell == pieces[j + 1])
  {
    if j + 1 < |pieces| && pieces[j + 1] != "" then pieces[j + 1] else "0"
  }

  function OptimizedTokens(path: string, w: nat): (tokens: seq<string>)
    ensures |tokens| == w
    ensures forall k :: 0 <= k < |tokens| ==> tokens[k] != "" && Slash !in tokens[k]
  {
    var pieces := Split(path, Slash);
    seq(w, j requires 0 <= j < w => OptimizedCell(pieces, j))
  }

  /** `_matriciseTree_optimized(st)`: split, keep up to columns 1..11, fill gaps with 0, convert. */
  function MatriciseTreeOptimized(st: seq<StructureRecord>): (r: Result<Matrix, PathError>)
    ensures r.Ok? ==> |r.value| == |st|
    ensures r.Ok? ==> forall i :: 0 <= i < |st| ==> |r.value[i]| == OptimizedWidth(st) <= MaxOptimizedWidth
    ensures r.Err? <==> exists i :: 0 <= i < |st| && !AllDecimal(OptimizedTokens(st[i].structureIdPath, OptimizedWidth(st)))
  {
    var w := OptimizedWidth(st);
    var table := seq(|st|, i requires 0 <= i < |st| => OptimizedTokens(st[i].structureIdPath, w));
    assert forall i :: 0 <= i < |st| ==> (ParseRow(table[i]).Some? <==> AllDecimal(OptimizedTokens(st[i].structureIdPath, w)));
    match ParseTable(table)
    case Some(m) => Ok(m)
    case None => Err(MalformedPath)
  }

  // ---------------------------------------------------------------------------
  // Round trips: a well-formed path is read back as its ancestor chain
  // ---------------------------------------------------------------------------

  /** A table whose paths are written out from the ancestor chains `chains`. */
  ghost predicate WrittenFrom(st: seq<StructureRecord>, chains: seq<seq<nat>>)
  {
    |chains| == |st| && forall i :: 0 <= i < |st| ==> st[i].structureIdPath == FormatPath(chains[i])
  }

  lemma SplitFormatPath(ids: seq<nat>)
    ensures Split(FormatPath(ids), Slash) == [""] + ShowAll(ids) + [""]
  {
    var pieces := [""] + ShowAll(ids) + [""];
    forall i | 0 <= i < |pieces|
      ensures Slash !in pieces[i]
    {
      if 0 < i < |pieces| - 1 {
        assert pieces[i] == ShowNat(ids[i - 1]);
        assert IsDecimal(pieces[i]);
      }
    }
    SplitJoin(pieces, Slash);
  }

  /** Appending `n` copies of "0/" to a joined path adds `n` pieces "0" before the final empty piece. */
  lemma {:induction false} JoinZeroPadding(pieces: seq<string>, n: nat)
    requires |pieces| > 0
    ensures Join(pieces + [""], Slash) + Repeat("0/", n) == Join(pieces + seq(n, _ => "0") + [""], Slash)
    decreases n
  {
    if n == 0 {
      assert pieces + seq(n, _ => "0") + [""] == pieces + [""];
    } else {
      var longer := pieces + ["0"];
      JoinSnoc(pieces, "", Slash);
      JoinSnoc(pieces, "0", Slash);
      JoinSnoc(longer, "", Slash);
      calc {
        Join(pieces + [""], Slash) + Repeat("0/", n);
        Join(pieces, Slash) + [Slash] + ("0/" + Repeat("0/", n - 1));
        { assert [Slash] + "0/" == [Slash] + "0" + [Slash]; }
        Join(pieces, Slash) + [Slash] + "0" + [Slash] + Repeat("0/", n - 1);
        Join(longer + [""], Slash) + Repeat("0/", n - 1);
        { JoinZeroPadding(longer, n - 1); }
        Join(longer + seq(n - 1, _ => "0") + [""], Slash);
        { assert longer + seq(n - 1, _ => "0") == pieces + seq(n, _ => "0"); }
        Join(pieces + seq(n, _ => "0") + [""], Slash);
      }
    }
  }

  lemma ParseZero()
    ensures ParseNat("0") == Some(0)
  {
    assert "0"[..0] == [];
  }

  /** `_matriciseTree` on a written-out path: its first ten ids, then zeros. */
  lemma LegacyRowOfChain(ids: seq<nat>)
    ensures ParseRow(LegacyTokens(FormatPath(ids))) == Some(PadOrTruncate(ids, LegacyWidth))
  {
    var path := FormatPath(ids);
    var n := LegacyPaddingCount(path);
    var shows := ShowAll(ids);
    SplitFormatPath(ids);
    assert CountChar(path, Slash) == |ids| + 1;
    JoinZeroPadding([""] + shows, n);
    var pieces := [""] + shows + seq(n, _ => "0") + [""];
    SplitJoin(pieces, Slash) by {
      forall i | 0 <= i < |pieces|
        ensures Slash !in pieces[i]
      {
        if 0 < i <= |shows| {
          assert pieces[i] == ShowNat(ids[i - 1]);
          assert IsDecimal(pieces[i]);
        }
      }
    }
    assert Split(LegacyPadded(path), Slash) == pieces;
    var tokens := LegacyTokens(path);
    ParseZero();
    forall j | 0 <= j < LegacyWidth
      ensures ParseNat(tokens[j]) == Some(PadOrTruncate(ids, LegacyWidth)[j])
    {
      assert tokens[j] == pieces[j + 1];
      if j < |ids| {
        ParseShow(ids[j]);
      } else {
        assert pieces[j + 1] == "0";
      }
    }
    var row := ParseRow(tokens);
    assert row.Some?;
    assert row.value == PadOrTruncate(ids, LegacyWidth);
  }

  /** Every record with a written-out path becomes the first ten ids of its chain, then zeros. */
  lemma {:induction false} MatriciseTreeReadsChains(st: seq<StructureRecord>, chains: seq<seq<nat>>)
    requires WrittenFrom(st, chains)
    ensures MatriciseTree(st).Ok?
    ensures forall i :: 0 <= i < |st| ==> MatriciseTree(st).value[i] == PadOrTruncate(chains[i], LegacyWidth)
  {
    var table := seq(|st|, i requires 0 <= i < |st| => LegacyTokens(st[i].structureIdPath));
    forall i | 0 <= i < |st|
      ensures ParseRow(table[i]) == Some(PadOrTruncate(chains[i], LegacyWidth))
    {
      LegacyRowOfChain(chains[i]);
    }
  }

  /** The deepest chain of a table. */
  function MaxDepth(chains: seq<seq<nat>>): (d: nat)
    ensures forall i :: 0 <= i < |chains| ==> |chains[i]| <= d
    ensures |chains| > 0 ==> exists i :: 0 <= i < |chains| && |chains[i]| == d
  {
    if |chains| == 0 then 0
    else
      var rest := MaxDepth(chains[1..]);
      assert forall i :: 1 <= i < |chains| ==> |chains[i]| <= rest by {
        forall i | 1 <= i < |chains| ensures |chains[i]| <= rest {
          assert chains[i] == chains[1..][i - 1];
        }
      }
      if |chains[0]| < rest then
        assert |chains| > 1;
        var k :| 0 <= k < |chains[1..]| && |chains[1..][k]| == rest;
        assert chains[k + 1] == chains[1..][k];
        rest
      else |chains[0]|
  }

  lemma {:induction false} MaxPieceCountOfChains(st: seq<StructureRecord>, chains: seq<seq<nat>>)
    requires WrittenFrom(st, chains) && |st| > 0
    ensures MaxPieceCount(st) == MaxDepth(chains) + 2
  {
    SplitFormatPath(chains[0]);
    if |st| > 1 {
      MaxPieceCountOfChains(st[1..], chains[1..]);
    }
  }

  /** `_matriciseTree_optimized` on a written-out path of a table of width `w`. */
  lemma OptimizedRowOfChain(ids: seq<nat>, w: nat)
    ensures ParseRow(OptimizedTokens(FormatPath(ids), w)) == Some(PadOrTruncate(ids, w))
  {
    var pieces := [""] + ShowAll(ids) + [""];
    SplitFormatPath(ids);
    var tokens := OptimizedTokens(FormatPath(ids), w);
    ParseZero();
    forall j | 0 <= j < w
      ensures ParseNat(tokens[j]) == Some(PadOrTruncate(ids, w)[j])
    {
      if j < |ids| {
        assert pieces[j + 1] == ShowNat(ids[j]);
        assert ShowNat(ids[j]) != "";
        assert tokens[j] == ShowNat(ids[j]);
        ParseShow(ids[j]);
      } else {
        assert tokens[j] == "0";
      }
    }
    var row := ParseRow(tokens);
    assert row.Some?;
    assert row.value == PadOrTruncate(ids, w);
  }

  /** `_matriciseTree_optimized` on written-out paths: width min(11, deepest chain + 1),
      each row its chain's ids followed only by zeros, ids past the 11th dropped. */
  lemma {:induction false} MatriciseTreeOptimizedReadsChains(st: seq<StructureRecord>, chains: seq<seq<nat>>)
    requires WrittenFrom(st, chains) && |st| > 0
    ensures OptimizedWidth(st) == if MaxDepth(chains) + 1 < MaxOptimizedWidth then MaxDepth(chains) + 1 else MaxOptimizedWidth
    ensures MatriciseTreeOptimized(st).Ok?
    ensures forall i :: 0 <= i < |st| ==> MatriciseTreeOptimized(st).value[i] == PadOrTruncate(chains[i], OptimizedWidth(st))
  {
    MaxPieceCountOfChains(st, chains);
    var w := OptimizedWidth(st);
    var table := seq(|st|, i requires 0 <= i < |st| => OptimizedTokens(st[i].structureIdPath, w));
    forall i | 0 <= i < |st|
      ensures ParseRow(table[i]) == Some(PadOrTruncate(chains[i], w))
    {
      OptimizedRowOfChain(chains[i], w);
    }
  }
}

=== FILE: text.dfy ===
/** String handling used to turn a `structure_id_path` such as "/997/8/567/" into integer ids:
    counting and splitting on a separator, and decimal integer parsing. */
module Text {
  import opened Wrappers

  /** Number of occurrences of `c` in `s` (Python's `str.count` for a single character). */
  function CountChar(s: string, c: char): (n: nat)
    ensures n <= |s|
  {
    if |s| == 0 then 0 else (if s[0] == c then 1 else 0) + CountChar(s[1..], c)
  }

  /** The count is 0 exactly when the character does not occur. */
  lemma {:induction false} CountCharAbsent(s: string, c: char)
    ensures CountChar(s, c) == 0 <==> c !in s
  {
    if |s| > 0 {
      CountCharAbsent(s[1..], c);
      assert s == [s[0]] + s[1..];
    }
  }

  lemma {:induction false} CountCharAppend(s: string, t: string, c: char)
    ensures CountChar(s + t, c) == CountChar(s, c) + CountChar(t, c)
  {
    if |s| == 0 {
      assert s + t == t;
    } else {
      assert (s + t)[1..] == s[1..] + t;
      CountCharAppend(s[1..], t, c);
    }
  }

  /** `s` repeated `n` times. */
  function Repeat(s: string, n: nat): string
  {
    if n == 0 then "" else s + Repeat(s, n - 1)
  }

  lemma {:induction false} CountCharRepeat(s: string, n: nat, c: char)
    ensures CountChar(Repeat(s, n), c) == n * CountChar(s, c)
  {
    if n > 0 {
      var rest := Repeat(s, n - 1);
      assert Repeat(s, n) == s + rest;
      CountCharRepeat(s, n - 1, c);
      CountCharAppend(s, rest, c);
      MultiplyStep(n, CountChar(s, c));
    }
  }

  lemma MultiplyStep(n: nat, k: nat)
    requires n > 0
    ensures n * k == k + (n - 1) * k
  {
  }

  /** Python's `s.split(sep)`: the pieces between consecutive separators, empty pieces included. */
  function Split(s: string, sep: char): (pieces: seq<string>)
    ensures |pieces| == CountChar(s, sep) + 1
    ensures forall i :: 0 <= i < |pieces| ==> sep !in pieces[i]
  {
    if |s| == 0 then [""]
    else
      var rest := Split(s[1..], sep);
      if s[0] == sep then [""] + rest
      else [[s[0]] + rest[0]] + rest[1..]
  }

  /** Python's `sep.join(pieces)`. */
  function Join(pieces: seq<string>, sep: char): string
  {
    if |pieces| == 0 then ""
    else if |pieces| == 1 then pieces[0]
    else pieces[0] + [sep] + Join(pieces[1..], sep)
  }

  lemma {:induction false} SplitNoSeparator(s: string, sep: char)
    requires sep !in s
    ensures Split(s, sep) == [s]
  {
    if |s| > 0 {
      assert sep !in s[1..];
      SplitNoSeparator(s[1..], sep);
      assert [s[0]] + s[1..] == s;
    }
  }

  lemma {:induction false} SplitAtSeparator(t: string, s: string, sep: char)
    requires sep !in t
    ensures Split(t + [sep] + s, sep) == [t] + Split(s, sep)
  {
    if |t| == 0 {
      assert t + [sep] + s == [sep] + s;
      assert ([sep] + s)[1..] == s;
    } else {
      assert (t + [sep] + s)[1..] == t[1..] + [sep] + s;
      assert sep !in t[1..];
      SplitAtSeparator(t[1..], s, sep);
      assert [t[0]] + t[1..] == t;
    }
  }

  /** Splitting undoes joining, as long as no piece contains the separator. */
  lemma {:induction false} SplitJoin(pieces: seq<string>, sep: char)
    requires |pieces| > 0
    requires forall i :: 0 <= i < |pieces| ==> sep !in pieces[i]
    ensures Split(Join(pieces, sep), sep) == pieces
  {
    if |pieces| == 1 {
      SplitNoSeparator(pieces[0], sep);
    } else {
      SplitJoin(pieces[1..], sep);
      SplitAtSeparator(pieces[0], Join(pieces[1..], sep), sep);
      assert [pieces[0]] + pieces[1..] == pieces;
    }
  }

  lemma {:induction false} JoinConsChar(a: char, first: string, rest: seq<string>, sep: char)
    ensures Join([[a] + first] + rest, sep) == [a] + Join([first] + rest, sep)
  {
    var p := [[a] + first] + rest;
    var q := [first] + rest;
    assert p[1..] == rest && q[1..] == rest;
  }

  /** Joining undoes splitting: no character of the path is lost or invented. */
  lemma {:induction false} JoinSplit(s: string, sep: char)
    ensures Join(Split(s, sep), sep) == s
  {
    if |s| > 0 {
      var rest := Split(s[1..], sep);
      JoinSplit(s[1..], sep);
      if s[0] == sep {
        assert ([""] + rest)[1..] == rest;
        assert [s[0]] + s[1..] == s;
      } else {
        JoinConsChar(s[0], rest[0], rest[1..], sep);
        assert [rest[0]] + rest[1..] == rest;
        assert [s[0]] + s[1..] == s;
      }
    }
  }

  /** Joining one more piece adds the separator and the piece at the end. */
  lemma {:induction false} JoinSnoc(pieces: seq<string>, last: string, sep: char)
    requires |pieces| > 0
    ensures Join(pieces + [last], sep) == Join(pieces, sep) + [sep] + last
  {
    if |pieces| == 1 {
      assert (pieces + [last])[1..] == [last];
    } else {
      assert (pieces + [last])[1..] == pieces[1..] + [last];
      JoinSnoc(pieces[1..], last, sep);
    }
  }

  predicate IsDigit(c: char)
  {
    '0' <= c <= '9'
  }

  /** A token Python's `int()` accepts here: one or more ASCII digits. */
  predicate IsDecimal(s: string)
  {
    |s| > 0 && forall i :: 0 <= i < |s| ==> IsDigit(s[i])
  }

  function DigitValue(c: char): nat
    requires IsDigit(c)
  {
    (c as int) - ('0' as int)
  }

  function DigitChar(d: nat): (c: char)
    requires d < 10
    ensures IsDigit(c) && DigitValue(c) == d
  {
    ('0' as int + d) as char
  }

  /** Value of a string of digits, most significant first. */
  function DecimalValue(s: string): nat
    requires forall i :: 0 <= i < |s| ==> IsDigit(s[i])
  {
    if |s| == 0 then 0 else DecimalValue(s[..|s| - 1]) * 10 + DigitValue(s[|s| - 1])
  }

  /** Python's `int(token)` on an id token; `None` is the `ValueError` it raises. */
  function ParseNat(token: string): (r: Option<nat>)
    ensures r.Some? <==> IsDecimal(token)
  {
    if IsDecimal(token) then Some(DecimalValue(token)) else None
  }

  /** Python's `str(n)` for a non-negative integer. */
  function ShowNat(n: nat): (s: string)
    ensures IsDecimal(s)
  {
    if n < 10 then [DigitChar(n)] else ShowNat(n / 10) + [DigitChar(n % 10)]
  }

  /** Parsing a printed id gives the id back. */
  lemma {:induction false} ParseShow(n: nat)
    ensures ParseNat(ShowNat(n)) == Some(n)
  {
    var s := ShowNat(n);
    if n < 10 {
      assert s[..|s| - 1] == [];
      assert DecimalValue(s) == DigitValue(s[0]);
    } else {
      ParseShow(n / 10);
      assert s[..|s| - 1] == ShowNat(n / 10);
      assert DecimalValue(s) == DecimalValue(ShowNat(n / 10)) * 10 + n % 10;
    }
  }
}

=== FILE: view.dfy ===
/** The older copies of the hierarchy routines in view.py. `findChildren` there rebuilds the
    legacy 10-column matrix from the table on every call, and its `return` sits inside the
    `else` branch, so a leaf structure yields `None`. */
module View {
  import opened Wrappers
  import opened Structures
  import Hierarchy
  import Masks

  /** `hasChildren(targetId, tree)`: `False` for exactly one occurrence, `True` for several,
      `-1` for none. */
  function HasChildren(t: int, tree: Matrix): (flag: Hierarchy.ChildFlag)
    ensures flag == Hierarchy.NoChildren <==> |Hierarchy.Positions(tree, t)| == 1
    ensures flag == Hierarchy.HasSome <==> |Hierarchy.Positions(tree, t)| > 1
    ensures flag == Hierarchy.InvalidId <==> forall i :: 0 <= i < |tree| ==> t !in tree[i]
  {
    Hierarchy.HasChildren(tree, t)
  }

  /** `matriciseTree(st)`: ten columns per record, the same matrix as process.py's `_matriciseTree`. */
  function MatriciseTree(st: seq<StructureRecord>): (r: Result<Matrix, PathError>)
    ensures r == Structures.MatriciseTree(st)
    ensures r.Ok? ==> |r.value| == |st| && forall i :: 0 <= i < |st| ==> |r.value[i]| == LegacyWidth
  {
    Structures.MatriciseTree(st)
  }

  /** `findChildren(targetId, st)`. */
  function FindChildren(t: int, st: seq<StructureRecord>): (r: Result<Option<seq<int>>, PathError>)
    ensures r.Err? <==> Structures.MatriciseTree(st).Err?
    ensures r.Ok? ==> (r.value.None? <==> |Hierarchy.Positions(Structures.MatriciseTree(st).value, t)| == 1)
    ensures r.Ok? && r.value.Some? ==> r.value.value == Hierarchy.FindChildren(Structures.MatriciseTree(st).value, t)
    ensures r.Ok? && (forall i :: 0 <= i < |st| ==> t !in Structures.MatriciseTree(st).value[i]) ==> r.value == Some([])
  {
    match MatriciseTree(st)
    case Err(e) => Err(e)
    case Ok(tree) =>
      if !Hierarchy.Truthy(HasChildren(t, tree)) then Ok(None)
      else Ok(Some(Hierarchy.ScanRows(Hierarchy.Containing(tree, t), [])))
  }

  /** For an id occurring more than once (or not at all) in a table with distinct own ids,
      `findChildren` lists each holding row's own id once, in table order. */
  lemma {:induction false} FindChildrenCollectsOwnIds(t: int, st: seq<StructureRecord>)
    requires Structures.MatriciseTree(st).Ok?
    requires |Hierarchy.Positions(Structures.MatriciseTree(st).value, t)| != 1
    requires Hierarchy.DistinctOwnIds(Structures.MatriciseTree(st).value)
    ensures FindChildren(t, st) ==
      Ok(Some(Hierarchy.OwnIds(Hierarchy.Containing(Structures.MatriciseTree(st).value, t))))
    ensures Hierarchy.Distinct(FindChildren(t, st).value.value)
  {
    Hierarchy.FindChildrenCollectsOwnIds(Structures.MatriciseTree(st).value, t);
  }

  /** What `makeRegionByID` in view.py can raise before contouring. */
  datatype ViewError =
    | Malformed        // `astype('int')` rejected a path token
    | NoneNotIterable  // `for index in None` after `findChildren` returned `None`

  /** `makeRegionByID(av, st, targetId)` of view.py, up to the contouring: the mask of the ids
      `findChildren` returns; a leaf id makes the loop iterate over `None` and raise. */
  method MakeRegionMask(av: seq<int>, st: seq<StructureRecord>, t: int) returns (r: Result<seq<bool>, ViewError>)
    ensures r == Err(Malformed) <==> Structures.MatriciseTree(st).Err?
    ensures r == Err(NoneNotIterable) <==>
      Structures.MatriciseTree(st).Ok? && |Hierarchy.Positions(Structures.MatriciseTree(st).value, t)| == 1
    ensures r.Ok? ==> r.value == Masks.MaskOf(av, Hierarchy.FindChildren(Structures.MatriciseTree(st).value, t))
    ensures r.Ok? && (forall i :: 0 <= i < |st| ==> t !in Structures.MatriciseTree(st).value[i]) ==>
      forall v :: 0 <= v < |av| ==> !r.value[v]
  {
    match FindChildren(t, st)
    case Err(_) =>
      r := Err(Malformed);
    case Ok(None) =>
      r := Err(NoneNotIterable);
    case Ok(Some(indices)) =>
      var region := Masks.RegionMask(av, indices);
      r := Ok(region);
  }
}

=== FILE: wrappers.dfy ===
/** Optional and fallible results, standing in for Python's `None` returns and raised exceptions. */
module Wrappers {

  /** A value that may be absent (Python's `None`). */
  datatype Option<+T> = None | Some(value: T)

  /** A computation that either succeeds with a value or raises an error. */
  datatype Result<+T, +E> = Ok(value: T) | Err(error: E)
}
